=== FILE: README.md ===
# locplace coordinator: a Dafny model

The locplace scanner coordinator is the HTTP server that hands out DNS root domains
to scanner clients and publishes the LOC records they find. This project models the
coordinator's request logic that does not depend on the claim/lease queries, and proves
properties of that model:

- the domain-set store (`DomainSets`): create, get with counts, list newest first,
  delete, and the bulk insert that ignores duplicates and is not atomic;
- the operator endpoints under `/api/admin` (`AdminHandlers`): the ordered validation
  of each endpoint, the status each failure maps to, the store calls issued, and
  client liveness;
- the public endpoints under `/api/public` (`PublicHandlers`): query-parameter
  defaulting and clamping, the paged record listing, the GeoJSON export and the
  statistics endpoint;
- the embedded frontend (`Frontend`): the `/` to `/index.html` rewrite, the fallback
  to the site root for client-side routes, and the three Cache-Control regimes;
- the HTTP metrics middleware (`Metrics`): status capture, the request counter, the
  duration observations, the in-flight gauge and the referrer counter;
- the admin-key gate and the client lookup in a request context (`Auth`).

Shared vocabulary lives in `Http` (responses, `Get` on multi-valued maps, ordered
validation tables), `Strconv` (Go's `Atoi`/`Itoa` on 64-bit ints), `Strings` and
`Wrappers`.

Each handler is a pure function. Its inputs are what the router and JSON decoder
hand it and what the store answers. Its result is the response plus the list of
store calls it made, so "the store is never asked" is a statement about that list.
Handlers of the domain-set endpoints run against the `DomainSets` store model and
also return the store afterwards. For store functions whose code is not part of this
model (clients, LOC records, statistics), the store's answer is a parameter.

A validation order is stated as a table of `Check`s. The predicate
`AnswersFirstFailure` says the response is the error of the first check that fails.
`AllPass` says every check passed.

The insert loop of `InsertDomainsToSet` has two definitions. `DomainSets.InsertSpec`
is a closed-form reference. `DomainSets.InsertDomainsToSet` is the statement-by-statement
loop, and it is proved to compute the reference's outcome. A failing statement is
given as `failAt`, the index of the first statement that fails.

The table definitions are not part of this model. Two assumptions stand in for
them:

- Deleting a domain set detaches its domains, with `domain_set_id` set to NULL and
  the rest of each row kept, as the comment on `DeleteDomainSet`
  (internal/coordinator/db/domain_sets.go:85) says. A schema that cascaded the
  delete would remove those rows instead.
- Domain-set names are unique, so creating a set under a name already in use fails.

The admin-key middleware's own source is not part of this model either. `Auth.AdminAuth`
models the behaviour that its tests and their comments describe.

## Model

| member | source | states |
|---|---|---|
| DomainSets.CreateDomainSet | internal/coordinator/db/domain_sets.go:21-33 | On success the new row carries the requested name and source with the database's id and time, is appended after every existing set, and leaves the domains table untouched; an unreachable database or a clash with an existing id or name is an error |
| DomainSets.CreatePreservesWellFormed | internal/coordinator/db/domain_sets.go:22-32 | Creating a set keeps set ids unique and every owned domain pointing at an existing set |
| DomainSets.GetDomainSet | internal/coordinator/db/domain_sets.go:35-55 | An unknown id is Ok(None), not an error; a known id yields its set with total = number of domains it owns and scanned = number of those ever scanned, so scanned <= total; only a database failure is an error |
| DomainSets.CreatedSetIsEmpty | internal/coordinator/db/domain_sets.go:22-55 | Looking up a freshly created set finds exactly that set with both counts zero |
| DomainSets.Summarize | internal/coordinator/db/domain_sets.go:39-46 | The grouped row copies the set's columns, counts its member domains, counts the scanned ones among them, and the second count never exceeds the first |
| DomainSets.SortByCreated | internal/coordinator/db/domain_sets.go:67 | The result is ordered by creation time descending and is a permutation of its input |
| DomainSets.ListDomainSets | internal/coordinator/db/domain_sets.go:57-83 | Listing fails exactly when the database is unreachable; otherwise it returns every set exactly once (one entry per row, as a multiset), each with its counts, newest first |
| DomainSets.ListAgreesWithGet | internal/coordinator/db/domain_sets.go:36-83 | Every set appears in the listing with exactly the counts GetDomainSet reports for its id |
| DomainSets.DeleteDomainSet | internal/coordinator/db/domain_sets.go:85-95 | NoRows exactly when no set has the id; on success exactly that set is gone and every other set stays; each former member is detached with its last scan time kept, and every other domain row is unchanged |
| DomainSets.DeletePreservesWellFormed | internal/coordinator/db/domain_sets.go:85-94 | Deleting a set keeps ids unique and leaves no domain pointing at a missing set |
| DomainSets.DeletedSetIsGone | internal/coordinator/db/domain_sets.go:85-94 | After a delete the set is not found, and deleting it again reports NoRows |
| DomainSets.InsertSpec | internal/coordinator/db/domain_sets.go:97-114 | Of the statements that ran, inserted + duplicates counts each once; the error is present exactly when a statement failed; the table gains exactly the names whose statements ran, existing rows are never overwritten and the sets are untouched |
| DomainSets.InsertDomainsToSet | internal/coordinator/db/domain_sets.go:97-114 | The per-name loop with ON CONFLICT DO NOTHING returns the same counts, error and table as the reference InsertSpec, and fails exactly when some statement inside the list fails |
| DomainSets.FirstSightingsCount | internal/coordinator/db/domain_sets.go:107-111 | Counting a name as inserted the first time it is absent from the table gives the number of distinct new names among those processed |
| DomainSets.InsertCoversReachedNames | internal/coordinator/db/domain_sets.go:99-106 | Every name whose statement ran is in the table afterwards, even when a later statement fails |
| DomainSets.InsertCountsDistinctNewNames | internal/coordinator/db/domain_sets.go:99-111 | On success, inserted is the number of distinct names not already present and duplicates is everything else in the list |
| DomainSets.InsertIdempotent | internal/coordinator/db/domain_sets.go:101-111 | Repeating a successful insert of the same list inserts nothing, counts every entry as a duplicate and leaves the table as it was |
| DomainSets.InsertNeverMovesExistingName | internal/coordinator/db/domain_sets.go:101 | A name already owned by one set stays with it when a later insert names it for another set |
| DomainSets.InsertPreservesWellFormed | internal/coordinator/db/domain_sets.go:99-112 | Inserting into an existing set leaves every owned domain pointing at an existing set |
| DomainSets.InsertRepeatedNameExample | internal/coordinator/db/domain_sets.go:99-111 | A name given twice in one call counts once as inserted and once as a duplicate |
| AdminHandlers.RegisterClient | internal/coordinator/handlers/admin.go:21-45 | The store is asked exactly when the body decodes with a non-empty name, and then once with that name; 201 exactly when it was asked and succeeded, answering with the store's id and token and the requested name |
| AdminHandlers.RegisterClientFollowsTable | internal/coordinator/handlers/admin.go:22-45 | The response is the error of the first failing check in the order body, name, store, and 201 with the new client when none fails |
| AdminHandlers.RegisterClientValidatesFirst | internal/coordinator/handlers/admin.go:23-32 | An undecodable body or empty name gives 400 whatever the store would have answered |
| AdminHandlers.IsAlive | internal/coordinator/handlers/admin.go:61 | A client is alive exactly when it has a heartbeat and less than the timeout has elapsed since it |
| AdminHandlers.AliveNeedsRecentHeartbeat | internal/coordinator/handlers/admin.go:61 | No heartbeat means not alive; a heartbeat exactly timeout old is not alive and one a tick younger is |
| AdminHandlers.AliveIsMonotone | internal/coordinator/handlers/admin.go:61 | A client alive now was alive at every earlier instant and stays alive with a later heartbeat |
| AdminHandlers.ClientInfos | internal/coordinator/handlers/admin.go:56-70 | One entry per stored client in store order, every field copied unchanged, alive exactly when its last heartbeat is recent |
| AdminHandlers.ListClients | internal/coordinator/handlers/admin.go:47-73 | One list call; a store error gives 500 "failed to list clients"; otherwise 200 with one entry per client |
| AdminHandlers.ListClientsAliveCount | internal/coordinator/handlers/admin.go:60-69 | Each listed client is reported alive exactly when it has a heartbeat less than timeout old |
| AdminHandlers.DeleteClient | internal/coordinator/handlers/admin.go:75-90 | An empty id gives 400 without asking the store; any store error gives 404; 204 exactly when the id is non-empty and the store deleted it |
| AdminHandlers.DeleteClientFollowsTable | internal/coordinator/handlers/admin.go:76-89 | The response is the error of the first failing check in the order id, store, and 204 exactly when none fails |
| AdminHandlers.CreateDomainSet | internal/coordinator/handlers/admin.go:92-120 | The store is asked exactly when the body decodes with non-empty name and source; 201 exactly when the store creates the set, echoing its id, name and source, and the store afterwards is the one that create produced; any other answer leaves the store unchanged |
| AdminHandlers.CreateDomainSetFollowsTable | internal/coordinator/handlers/admin.go:93-120 | The response is the error of the first failing check in the order body, name, source, store, and 201 when none fails |
| AdminHandlers.CreateDomainSetNameBeforeSource | internal/coordinator/handlers/admin.go:100-107 | A body missing both name and source is rejected for its name |
| AdminHandlers.DomainSetInfos | internal/coordinator/handlers/admin.go:134-143 | One entry per listed set, in order, with every field copied |
| AdminHandlers.ListDomainSets | internal/coordinator/handlers/admin.go:122-146 | An unreachable store gives 500; otherwise 200 whose list is the store's listing converted entry by entry: every set once, newest first |
| AdminHandlers.ListDomainSetsScannedWithinTotal | internal/coordinator/handlers/admin.go:134-143 | No listed set reports more scanned domains than domains |
| AdminHandlers.ListDomainSetsAgreesWithGet | internal/coordinator/handlers/admin.go:122-146 | Every stored set appears in the listing with exactly the id, columns and counts that looking it up by id returns |
| AdminHandlers.DeleteDomainSet | internal/coordinator/handlers/admin.go:148-163 | An empty id gives 400 without asking the store; any store error gives 404 with the store unchanged; 204 exactly when the store deleted the set, and the store afterwards is the one that delete produced, without the set |
| AdminHandlers.DeleteDomainSetFollowsTable | internal/coordinator/handlers/admin.go:149-162 | The response is the error of the first failing check in the order id, store, and 204 exactly when none fails |
| AdminHandlers.DeleteDomainSetOutageLooksLikeNotFound | internal/coordinator/handlers/admin.go:156-160 | An unreachable database and an unknown id produce the same response |
| AdminHandlers.AddDomainsToSetGiven | internal/coordinator/handlers/admin.go:165-205 | A missing id, bad body or empty list gives 400 with no store call; the store changes only after the lookup found the set and the insert ran; 404 only when the lookup found no set, without inserting; 200 only when both succeeded, with the insert's counts |
| AdminHandlers.AddDomainsToSetFollowsTable | internal/coordinator/handlers/admin.go:166-205 | The response is the error of the first failing check in the order id, body, list, lookup, existence, insert, and 200 with the counts when none fails |
| AdminHandlers.AddDomainsToSet | internal/coordinator/handlers/admin.go:184-205 | Against the store: only an existing set can change the table, 404 means no such set, and 200 reports counts that add up to the list length |
| AdminHandlers.AddDomainsToSetPartialFailure | internal/coordinator/handlers/admin.go:195-199 | A failing insert statement yields 500 while every name before it is in the table afterwards and no new name that first appears at or after it is added |
| PublicHandlers.ParseIntParam | internal/coordinator/handlers/public.go:142-152 | The result is the default or the parameter's value; any value other than the default is non-negative; a parsable non-negative value is always taken |
| PublicHandlers.ParseIntParamNonNegative | internal/coordinator/handlers/public.go:142-152 | With a non-negative default the result is never negative |
| PublicHandlers.ParseIntParamFallsBack | internal/coordinator/handlers/public.go:143-150 | Every value Atoi rejects (absent, empty, non-numeric, out of range) and every negative value yields the default |
| PublicHandlers.ParseIntParamReadsDecimal | internal/coordinator/handlers/public.go:147-151 | The decimal text of any non-negative int64 is read back as that number, ignoring later values of the same name |
| PublicHandlers.PageLimit | internal/coordinator/handlers/public.go:21-27 | The page size is the limit parameter as parsed (100 when absent or malformed) when at most 1000, and 1000 above that, so always in 0..1000 |
| PublicHandlers.ListRecords | internal/coordinator/handlers/public.go:19-45 | One record query, with the page size, the offset parameter as parsed (0 when absent or malformed) and the domain filter; 500 exactly when it fails; otherwise 200 echoing the limit, offset and total, with no records reported as an empty list |
| PublicHandlers.ListRecordsDefaults | internal/coordinator/handlers/public.go:21-23 | With no parameters the query asks for 100 records from offset 0 with no domain filter |
| PublicHandlers.ListRecordsLimit | internal/coordinator/handlers/public.go:25-27 | A decimal limit is used as given up to 1000 and capped above it; 0 passes through |
| PublicHandlers.ListRecordsOffset | internal/coordinator/handlers/public.go:22 | A decimal offset reaches the query as given, with no upper cap |
| PublicHandlers.ListRecordsMalformedFallsBack | internal/coordinator/handlers/public.go:21-22 | A non-numeric limit and a negative offset fall back to 100 and 0 |
| PublicHandlers.ListRecordsNilIsEmpty | internal/coordinator/handlers/public.go:35-37 | A nil record list is sent as an empty list |
| PublicHandlers.ToFeature | internal/coordinator/handlers/public.go:58-75 | A record becomes a Point feature with coordinates longitude, latitude, altitude and the nine named properties, its altitude property equal to its third coordinate |
| PublicHandlers.FeatureRoundTrip | internal/coordinator/handlers/public.go:58-75 | The record can be read back unchanged from its feature, which passes the reader's checks: a "Feature" with a "Point" geometry, exactly the nine properties, and the altitude property equal to the third coordinate |
| PublicHandlers.ToFeatures | internal/coordinator/handlers/public.go:56-77 | One feature per record, in the records' order |
| PublicHandlers.EncodableFeatureIffEncodableRecord | internal/coordinator/handlers/public.go:58-75 | A record's feature encodes exactly when all six of the record's floats are finite and both its first-seen and last-seen times fall in years 0 to 9999 |
| PublicHandlers.EncodableIffAllRecordsEncodable | internal/coordinator/handlers/public.go:79-88 | The collection encodes exactly when every record does |
| PublicHandlers.GetRecordsGeoJSON | internal/coordinator/handlers/public.go:47-94 | A query error gives 500 "failed to get records"; 200 only when every record encodes, with the geo+json and cache headers and a FeatureCollection holding exactly one Point feature per record, in order, from which each record reads back; otherwise some record has a non-finite float or an out-of-range time, and the answer is 500 "failed to encode geojson" without the headers |
| PublicHandlers.GeoJsonSucceedsOnEncodableRecords | internal/coordinator/handlers/public.go:84-93 | Records with finite floats and in-range times always export with status 200 and a five-minute public cache |
| PublicHandlers.GeoJsonRejectsFarFutureTime | internal/coordinator/handlers/public.go:84-88 | One record last seen in the year 10000 or later makes the whole export fail with 500, even when all its floats are finite |
| PublicHandlers.GetStats | internal/coordinator/handlers/public.go:96-140 | The queries issued are a non-empty prefix of the five in order; 200 exactly when all five succeed, with each figure placed in its field; any other answer is a 500 error |
| PublicHandlers.GetStatsFollowsTable | internal/coordinator/handlers/public.go:99-129 | The response is the error of the first failing query, exactly the queries up to it are issued, and 200 exactly when none fails |
| Frontend.PolicyFor | frontend/embed.go:48-64 | Immutable exactly for paths under /_app/immutable/; otherwise revalidate exactly for .html paths and /; a day for everything else |
| Frontend.HashedDirectoryAlwaysImmutable | frontend/embed.go:50-58 | Every name under /_app/immutable/, an .html name included, is cached forever |
| Frontend.CacheControl | frontend/embed.go:52-63 | Every header value is public with a max-age, and only the hashed-asset value is marked immutable |
| Frontend.CacheControlInjective | frontend/embed.go:52-63 | The three header values are distinct, so the header identifies the regime |
| Frontend.ImmutableWinsOverHtml | frontend/embed.go:50-63 | An .html file under the hashed-asset directory is still cached forever |
| Frontend.Resolve | frontend/embed.go:27-30 | The site root never reaches the lookup as / and a non-empty path stays non-empty |
| Frontend.Serve | frontend/embed.go:25-45 | Only the empty path panics; the lookup uses the resolved path without its first character; a missing file is answered from the site root with the revalidating header; an existing file keeps its URL and gets the header of its resolved path |
| Frontend.FallbackIsNeverImmutable | frontend/embed.go:34-40 | A path naming no file is served from / and never cached as immutable |
| Frontend.RootServesIndex | frontend/embed.go:28-40 | The site root looks up index.html and is served from / with the revalidating header |
| Frontend.HashedAssetCachedForever | frontend/embed.go:33-54 | An existing hashed asset is served under its own URL and cached forever |
| Frontend.MissingHashedAssetFallsBack | frontend/embed.go:33-40 | A missing hashed asset falls back to the site root with the revalidating header |
| Metrics.IsApiPathIsPrefix | internal/coordinator/metrics/middleware.go:51-53 | A path is an API path exactly when it starts with /api, with no regard for segments (so /apix is one and /ap is not) |
| Metrics.Captured | internal/coordinator/metrics/middleware.go:15-18 | With no WriteHeader the starting status is kept; otherwise the last WriteHeader's code is the captured one |
| Metrics.CapturedIsSentForHandlerResponses | internal/coordinator/handlers/admin.go:209-217 | For every response the handlers write, the status the metrics record is the status the client receives |
| Metrics.CapturedIsLastCall | internal/coordinator/metrics/middleware.go:15-30 | Capture starts at 200; after two WriteHeader calls the metrics record the second code while the client receives the first |
| Metrics.Inc | internal/coordinator/metrics/middleware.go:40 | One increment raises the given label's count by one and no other count |
| Metrics.Middleware | internal/coordinator/metrics/middleware.go:21-49 | In-flight is one higher while the handler runs and back after; a handler that panics leaves every other collector unchanged; otherwise the request's labels, taken from the path as it stands after the handler, count one more and no others, its duration is appended under its route only, and referrers are untouched for API paths and counted under the Referer's domain otherwise |
| Metrics.ServeAllCountsEachRequest | internal/coordinator/metrics/middleware.go:26-40 | Over any sequence of requests each label counts exactly the requests carrying it whose handler returned, and the in-flight gauge returns to its start |
| Metrics.ApiCallsLeaveReferrersAlone | internal/coordinator/metrics/middleware.go:43-47 | A sequence of API requests never changes the referrer counter |
| Metrics.ClientRouteCountedAsRoot | internal/coordinator/metrics/middleware.go:33-46 | A client-side route that the frontend answers from the site root is labelled and timed under the normalised "/", not under the requested path, and is counted in the referrer counter |
| Metrics.EmptyPathLeavesNoTrace | internal/coordinator/metrics/middleware.go:26-47 | A request with an empty URL path, on which the frontend panics, is seen by the in-flight gauge while it runs and leaves every collector as it was |
| Auth.AdminAuth | internal/coordinator/middleware/auth_test.go:14-97 | The wrapped handler runs exactly when a key is configured and X-Admin-Key carries exactly it; otherwise 401 "unauthorized" |
| Auth.RejectionBody | internal/coordinator/middleware/auth_test.go:88-94 | Every rejection is a 401 whose body is exactly {"error":"unauthorized"} |
| Auth.GateReadsOnlyAdminKey | internal/coordinator/middleware/auth_test.go:52-58 | The decision depends on no header but X-Admin-Key, and an accepted key is never empty |
| Auth.AdminAuthCases | internal/coordinator/middleware/auth_test.go:24-58 | The valid key passes; a missing header, a wrong key, an empty value and the key under Authorization are rejected |
| Auth.EmptyKeyRejectsAll | internal/coordinator/middleware/auth_test.go:99-124 | With no configured key every request is rejected, including one with an empty X-Admin-Key |
| Auth.Value | internal/coordinator/middleware/auth_test.go:126-162 | A context lookup finds nothing exactly when the key was never bound, and finds the innermost binding otherwise |
| Auth.GetClient | internal/coordinator/middleware/auth_test.go:126-181 | A client is returned exactly when the client key holds a non-nil client pointer, and it is the stored one |
| Auth.GetClientRoundTrip | internal/coordinator/middleware/auth_test.go:183-216 | A stored client is returned with every field unchanged |
| Auth.GetClientAbsentCases | internal/coordinator/middleware/auth_test.go:143-157 | An empty context, a value of another type and a nil pointer all give no client |
| Auth.GetClientInnermostWins | internal/coordinator/middleware/auth_test.go:132-157 | Bindings of other keys do not hide the client, and a later binding of the client key to something else does |
| Strconv.Atoi | internal/coordinator/handlers/public.go:147 | A parsed value lies in the int64 range, comes from a non-empty run of digits after an optional sign, and is negative only after a minus sign |
| Strconv.AtoiItoa | internal/coordinator/handlers/public.go:147 | Every int64 is read back from its decimal text |
| Strconv.AtoiRejectsNonDigit | internal/coordinator/handlers/public.go:147-149 | Any non-digit after the sign makes parsing fail |
| Strconv.AtoiRejectsOutOfRange | internal/coordinator/handlers/public.go:147-149 | Digits beyond the int64 range make parsing fail instead of saturating |
| Strconv.AtoiExamples | internal/coordinator/handlers/public.go:147-149 | Empty and sign-only text fail, leading zeros and a plus sign are accepted, exponents are rejected |
| Http.ErrorBodyRoundTrip | internal/coordinator/handlers/admin.go:215-217 | The message can be read back unchanged from an error body |

## Left out

- Database access (pgx, connection pool, transactions, row locks): the store is a value, and a failing query is an input (`Conn`, `failAt`).
- Claim, lease, heartbeat and report queries, client creation with token minting and hashing, and the client, LOC-record and statistics queries: their code is not part of this model. Their answers are handler parameters.
- JSON decoding of request bodies: a body is either a decoded value or `Undecodable`. Unknown fields, type mismatches and trailing data are not distinguished.
- JSON encoding of responses: responses are values. Only the error body of a message needing no escaping is spelled out as text, without the newline json.Encoder appends.
- Http.ErrorBody: covers only messages needing no escaping, because every message the handlers and the gate send is plain ASCII text.
- DomainSets.CreateDomainSet: a clash with an existing name is an error because the model assumes set names are unique; the table definitions are not part of this model. Other insert failures are not modelled.
- DomainSets.GetDomainSet: every id string is taken as well formed. If the database rejects an id it cannot read as a set id (a malformed uuid, were ids uuids), that query error is folded into `Conn.Down`; the model instead answers such an id under `Conn.Up` as an unknown set, so `AdminHandlers.AddDomainsToSet` answers 404 where the code would answer 500.
- DomainSets.DeleteDomainSet: assumes the schema detaches a deleted set's domains, as the code comment says; a cascading schema would delete them, and the table definitions are not part of this model.
- PublicHandlers.EncodableInstant: the year test is taken on the instant in UTC, where Go tests the year in the location the time carries, so a time within a day of either end of the range may be judged differently. Other time-encoding failures, such as a zone offset outside what RFC 3339 can write, are not modelled.
- DomainSets.ListDomainSets: sets created at the same instant come back in one fixed order, where the database may return them in any order. A failure while reading rows is folded into the single `Conn` outcome.
- Time: instants and durations are integers (nanoseconds). The clock is a parameter (`now`, the elapsed time of a request). Durations are kept as integers rather than float seconds.
- Metrics.Middleware: path normalisation and referrer-domain extraction are parameters, because their code is not part of this model. The duration histogram is kept as the list of observations per label, not as buckets. A panic is taken to pass straight through the middleware, as middleware.go has no recovery; a recovering middleware inside it, in the router that is not part of this model, would change that.
- Prometheus collector registration, the periodic metrics updater (internal/coordinator/metrics/updater.go) and pool set-up (internal/coordinator/db/db.go): these are I/O, time and concurrency.
- Serving file bytes (http.FileServer, embed.FS, the fs.Sub of the build directory, fs.ValidPath rules): the embedded file system is the set of names it opens.
- The net/http panic on a status code outside 100..999, and header-name canonicalisation: header names are taken as canonical.
- Routing (chi) and URL parameters: the id a route extracts is a handler input.
- The admin-key middleware's source is not part of this model: `Auth.AdminAuth` states the behaviour its tests and their comments describe.
- LOC record parsing (internal/scanner/loc_test.go): its implementation is not part of this model, and its results are floating-point values compared within a tolerance.

=== FILE: admin_handlers.dfy ===
/**
  The operator endpoints under /api/admin: client registration, listing and
  deletion, and domain-set creation, listing, deletion and bulk domain insertion.

  Each handler is a function of what the router and the JSON decoder hand it
  (a URL id, a decoded body) and of what the store answers. The domain-set
  endpoints run against the DomainSets model; the client endpoints call store
  functions that are not part of this model, so their answers are parameters.
  Besides the response, every handler reports the store calls it made, in order,
  so that "the store is not called" can be stated.
 */
module AdminHandlers {
  import opened Wrappers
  import opened Http
  import DomainSets

  /** A call a handler makes on the store. */
  datatype StoreCall =
    | CreateClientCall(name: string)
    | ListClientsCall
    | DeleteClientCall(id: string)
    | CreateDomainSetCall(name: string, source: string)
    | ListDomainSetsCall
    | DeleteDomainSetCall(id: string)
    | GetDomainSetCall(id: string)
    | InsertDomainsToSetCall(setId: string, domains: seq<string>)

  /** The same, for handlers that run against the domain-set store, with the store afterwards. */
  datatype Effect<T> = Effect(response: Response<T>, calls: seq<StoreCall>, store: DomainSets.Store)

  // ---------------------------------------------------------------------------
  // Clients

  datatype RegisterClientRequest = RegisterClientRequest(name: string)
  datatype RegisterClientResponse = RegisterClientResponse(id: string, name: string, token: string)

  /** What the store's CreateClient returns: the new id and the one-time token. */
  datatype NewClient = NewClient(id: string, token: string)

  function RegisterClientChecks(body: Decoded<RegisterClientRequest>, created: Result<NewClient, StoreError>): seq<Check> {
    [ Check(body.Undecodable?, StatusBadRequest, "invalid request body"),
      Check(body.Decoded? && body.value.name == "", StatusBadRequest, "name is required"),
      Check(created.Err?, StatusInternalServerError, "failed to create client") ]
  }

  /** POST /api/admin/clients. created is what the store answers if it is asked. */
  function RegisterClient(body: Decoded<RegisterClientRequest>, created: Result<NewClient, StoreError>)
    : (h: Handled<RegisterClientResponse, StoreCall>)
    ensures h.calls != [] <==> body.Decoded? && body.value.name != ""
    ensures h.calls != [] ==> h.calls == [CreateClientCall(body.value.name)]
    ensures h.response.status == StatusCreated <==> h.calls != [] && created.Ok?
    ensures h.response.status == StatusCreated ==>
      h.response == Json(StatusCreated, RegisterClientResponse(created.value.id, body.value.name, created.value.token))
  {
    if body.Undecodable? then Handled(ErrorJson(StatusBadRequest, "invalid request body"), [])
    else if body.value.name == "" then Handled(ErrorJson(StatusBadRequest, "name is required"), [])
    else
      var calls := [CreateClientCall(body.value.name)];
      match created
      case Err(_) => Handled(ErrorJson(StatusInternalServerError, "failed to create client"), calls)
      case Ok(c) => Handled(Json(StatusCreated, RegisterClientResponse(c.id, body.value.name, c.token)), calls)
  }

  /** RegisterClient answers with the first failing check, in the order body, name, store. */
  lemma RegisterClientFollowsTable(body: Decoded<RegisterClientRequest>, created: Result<NewClient, StoreError>)
    ensures AnswersFirstFailure(RegisterClientChecks(body, created), RegisterClient(body, created).response)
    ensures AllPass(RegisterClientChecks(body, created)) ==>
      && body.Decoded? && created.Ok?
      && RegisterClient(body, created).response
         == Json(StatusCreated, RegisterClientResponse(created.value.id, body.value.name, created.value.token))
  {
    var c := RegisterClientChecks(body, created);
    var r := RegisterClient(body, created).response;
    if body.Undecodable? { FirstFailureDecides(c, 0, r); }
    else if body.value.name == "" { FirstFailureDecides(c, 1, r); }
    else if created.Err? { FirstFailureDecides(c, 2, r); }
  }

  /** When validation fails the store's answer cannot matter: the store is never asked. */
  lemma RegisterClientValidatesFirst(body: Decoded<RegisterClientRequest>, c1: Result<NewClient, StoreError>, c2: Result<NewClient, StoreError>)
    requires body.Undecodable? || body.value.name == ""
    ensures RegisterClient(body, c1) == RegisterClient(body, c2)
    ensures RegisterClient(body, c1).response.status == StatusBadRequest
  {
  }

  /** A client as the store lists it, with its count of domains in progress. */
  datatype ClientRow = ClientRow(id: string, name: string, createdAt: int, lastHeartbeat: Option<int>, activeDomains: int)

  datatype ClientInfo = ClientInfo(
    id: string, name: string, createdAt: int, lastHeartbeat: Option<int>, activeDomains: int, isAlive: bool)

  datatype ListClientsResponse = ListClientsResponse(clients: seq<ClientInfo>)

  /**
    A client is alive when it has sent a heartbeat and less than timeout has
    elapsed since; times and durations are nanosecond counts.
   */
  function IsAlive(lastHeartbeat: Option<int>, now: int, timeout: int): (alive: bool)
    ensures alive ==> lastHeartbeat.Some? && lastHeartbeat.value > now - timeout
    ensures lastHeartbeat.Some? && lastHeartbeat.value > now - timeout ==> alive
  {
    lastHeartbeat.Some? && now - lastHeartbeat.value < timeout
  }

  /** A client that has never sent a heartbeat is never alive, and one exactly timeout old is not alive. */
  lemma AliveNeedsRecentHeartbeat(hb: Option<int>, now: int, timeout: int)
    ensures hb.None? ==> !IsAlive(hb, now, timeout)
    ensures hb.Some? && now - hb.value == timeout ==> !IsAlive(hb, now, timeout)
    ensures hb.Some? && now - hb.value == timeout - 1 ==> IsAlive(hb, now, timeout)
  {
  }

  /** Liveness only decays: alive now means alive at every earlier instant, and a later heartbeat keeps it. */
  lemma AliveIsMonotone(hb: int, hb': int, now: int, now': int, timeout: int)
    requires IsAlive(Some(hb), now, timeout)
    requires now' <= now && hb <= hb'
    ensures IsAlive(Some(hb'), now', timeout)
  {
  }

  /** One ClientInfo per row, in order, fields copied and liveness computed at now. */
  function ClientInfos(rows: seq<ClientRow>, now: int, timeout: int): (infos: seq<ClientInfo>)
    ensures |infos| == |rows|
    ensures forall i :: 0 <= i < |rows| ==>
      && infos[i].id == rows[i].id && infos[i].name == rows[i].name
      && infos[i].createdAt == rows[i].createdAt && infos[i].lastHeartbeat == rows[i].lastHeartbeat
      && infos[i].activeDomains == rows[i].activeDomains
      && (infos[i].isAlive <==> IsAlive(rows[i].lastHeartbeat, now, timeout))
  {
    if rows == [] then []
    else
      var c := rows[0];
      [ClientInfo(c.id, c.name, c.createdAt, c.lastHeartbeat, c.activeDomains, IsAlive(c.lastHeartbeat, now, timeout))]
        + ClientInfos(rows[1..], now, timeout)
  }

  /** GET /api/admin/clients. */
  function ListClients(listed: Result<seq<ClientRow>, StoreError>, now: int, timeout: int)
    : (h: Handled<ListClientsResponse, StoreCall>)
    ensures h.calls == [ListClientsCall]
    ensures listed.Err? ==> h.response == ErrorJson(StatusInternalServerError, "failed to list clients")
    ensures listed.Ok? ==> h.response.Json? && h.response.status == StatusOK
    ensures listed.Ok? ==> h.response.value.clients == ClientInfos(listed.value, now, timeout)
  {
    match listed
    case Err(_) => Handled(ErrorJson(StatusInternalServerError, "failed to list clients"), [ListClientsCall])
    case Ok(rows) => Handled(Json(StatusOK, ListClientsResponse(ClientInfos(rows, now, timeout))), [ListClientsCall])
  }

  /** The listing reports exactly the alive clients as alive. */
  lemma ListClientsAliveCount(rows: seq<ClientRow>, now: int, timeout: int, i: nat)
    requires i < |rows|
    ensures var h := ListClients(Ok(rows), now, timeout);
      h.response.value.clients[i].isAlive <==> rows[i].lastHeartbeat.Some? && now - rows[i].lastHeartbeat.value < timeout
  {
  }

  /** DELETE /api/admin/clients/{id}. Any store error is reported as not found. */
  function DeleteClient(id: string, deleted: Result<(), StoreError>): (h: Handled<(), StoreCall>)
    ensures id == "" ==> h == Handled(ErrorJson(StatusBadRequest, "client id is required"), [])
    ensures id != "" ==> h.calls == [DeleteClientCall(id)]
    ensures id != "" && deleted.Err? ==> h.response == ErrorJson(StatusNotFound, "client not found")
    ensures h.response == Bare(StatusNoContent) <==> id != "" && deleted.Ok?
  {
    if id == "" then Handled(ErrorJson(StatusBadRequest, "client id is required"), [])
    else if deleted.Err? then Handled(ErrorJson(StatusNotFound, "client not found"), [DeleteClientCall(id)])
    else Handled(Bare(StatusNoContent), [DeleteClientCall(id)])
  }

  function DeleteClientChecks(id: string, deleted: Result<(), StoreError>): seq<Check> {
    [ Check(id == "", StatusBadRequest, "client id is required"),
      Check(deleted.Err?, StatusNotFound, "client not found") ]
  }

  /** DeleteClient answers with the first failing check, in the order id, store, and 204 when none fails. */
  lemma DeleteClientFollowsTable(id: string, deleted: Result<(), StoreError>)
    ensures AnswersFirstFailure(DeleteClientChecks(id, deleted), DeleteClient(id, deleted).response)
    ensures AllPass(DeleteClientChecks(id, deleted)) <==> DeleteClient(id, deleted).response == Bare(StatusNoContent)
  {
    var c := DeleteClientChecks(id, deleted);
    var r := DeleteClient(id, deleted).response;
    if id == "" { FirstFailureDecides(c, 0, r); }
    else if deleted.Err? { FirstFailureDecides(c, 1, r); }
  }

  // ---------------------------------------------------------------------------
  // Domain sets

  datatype CreateDomainSetRequest = CreateDomainSetRequest(name: string, source: string)
  datatype CreateDomainSetResponse = CreateDomainSetResponse(id: string, name: string, source: string)

  function CreateDomainSetChecks(s: DomainSets.Store, conn: DomainSets.Conn, newId: string, now: int,
                                 body: Decoded<CreateDomainSetRequest>): seq<Check>
  {
    [ Check(body.Undecodable?, StatusBadRequest, "invalid request body"),
      Check(body.Decoded? && body.value.name == "", StatusBadRequest, "name is required"),
      Check(body.Decoded? && body.value.source == "", StatusBadRequest, "source is required"),
      Check(body.Decoded? && DomainSets.CreateDomainSet(s, conn, newId, body.value.name, body.value.source, now).Err?,
            StatusInternalServerError, "failed to create domain set") ]
  }

  /**
    POST /api/admin/domain-sets. newId and now are the id and creation time the
    database would assign.
   */
  function CreateDomainSet(s: DomainSets.Store, conn: DomainSets.Conn, newId: string, now: int,
                           body: Decoded<CreateDomainSetRequest>): (e: Effect<CreateDomainSetResponse>)
    ensures e.calls != [] <==> body.Decoded? && body.value.name != "" && body.value.source != ""
    ensures e.calls != [] ==> e.calls == [CreateDomainSetCall(body.value.name, body.value.source)]
    ensures e.response.status == StatusCreated <==>
      e.calls != [] && DomainSets.CreateDomainSet(s, conn, newId, body.value.name, body.value.source, now).Ok?
    ensures e.response.status == StatusCreated ==>
      && e.response == Json(StatusCreated, CreateDomainSetResponse(newId, body.value.name, body.value.source))
      && e.store == DomainSets.CreateDomainSet(s, conn, newId, body.value.name, body.value.source, now).value.store
      && e.store.sets == s.sets + [DomainSets.SetRow(newId, body.value.name, body.value.source, now)]
    ensures e.response.status != StatusCreated ==> e.store == s
  {
    if body.Undecodable? then Effect(ErrorJson(StatusBadRequest, "invalid request body"), [], s)
    else if body.value.name == "" then Effect(ErrorJson(StatusBadRequest, "name is required"), [], s)
    else if body.value.source == "" then Effect(ErrorJson(StatusBadRequest, "source is required"), [], s)
    else
      var calls := [CreateDomainSetCall(body.value.name, body.value.source)];
      match DomainSets.CreateDomainSet(s, conn, newId, body.value.name, body.value.source, now)
      case Err(_) => Effect(ErrorJson(StatusInternalServerError, "failed to create domain set"), calls, s)
      case Ok(c) => Effect(Json(StatusCreated, CreateDomainSetResponse(c.row.id, c.row.name, c.row.source)), calls, c.store)
  }

  /** CreateDomainSet answers with the first failing check, in the order body, name, source, store. */
  lemma CreateDomainSetFollowsTable(s: DomainSets.Store, conn: DomainSets.Conn, newId: string, now: int,
                                    body: Decoded<CreateDomainSetRequest>)
    ensures AnswersFirstFailure(CreateDomainSetChecks(s, conn, newId, now, body), CreateDomainSet(s, conn, newId, now, body).response)
    ensures AllPass(CreateDomainSetChecks(s, conn, newId, now, body)) ==>
      && body.Decoded?
      && CreateDomainSet(s, conn, newId, now, body).response
         == Json(StatusCreated, CreateDomainSetResponse(newId, body.value.name, body.value.source))
  {
    var c := CreateDomainSetChecks(s, conn, newId, now, body);
    var r := CreateDomainSet(s, conn, newId, now, body).response;
    if body.Undecodable? { FirstFailureDecides(c, 0, r); }
    else if body.value.name == "" { FirstFailureDecides(c, 1, r); }
    else if body.value.source == "" { FirstFailureDecides(c, 2, r); }
    else if DomainSets.CreateDomainSet(s, conn, newId, body.value.name, body.value.source, now).Err? {
      FirstFailureDecides(c, 3, r);
    }
  }

  /** A body with neither name nor source is reported as missing its name: the name is checked first. */
  lemma CreateDomainSetNameBeforeSource(s: DomainSets.Store, conn: DomainSets.Conn, newId: string, now: int)
    ensures CreateDomainSet(s, conn, newId, now, Decoded(CreateDomainSetRequest("", ""))).response
         == ErrorJson(StatusBadRequest, "name is required")
  {
  }

  datatype DomainSetInfo = DomainSetInfo(
    id: string, name: string, source: string, createdAt: int, totalDomains: nat, scannedDomains: nat)

  datatype ListDomainSetsResponse = ListDomainSetsResponse(sets: seq<DomainSetInfo>)

  function DomainSetInfos(sets: seq<DomainSets.DomainSet>): (infos: seq<DomainSetInfo>)
    ensures |infos| == |sets|
    ensures forall i :: 0 <= i < |sets| ==>
      infos[i] == DomainSetInfo(sets[i].id, sets[i].name, sets[i].source, sets[i].createdAt,
                                sets[i].totalDomains, sets[i].scannedDomains)
  {
    if sets == [] then []
    else
      var d := sets[0];
      [DomainSetInfo(d.id, d.name, d.source, d.createdAt, d.totalDomains, d.scannedDomains)] + DomainSetInfos(sets[1..])
  }

  /** GET /api/admin/domain-sets: every set once, newest first. */
  function ListDomainSets(s: DomainSets.Store, conn: DomainSets.Conn): (h: Handled<ListDomainSetsResponse, StoreCall>)
    ensures h.calls == [ListDomainSetsCall]
    ensures conn.Down? ==> h.response == ErrorJson(StatusInternalServerError, "failed to list domain sets")
    ensures conn.Up? ==> h.response.Json? && h.response.status == StatusOK && |h.response.value.sets| == |s.sets|
    ensures conn.Up? ==> forall i, j :: 0 <= i < j < |h.response.value.sets| ==>
      h.response.value.sets[i].createdAt >= h.response.value.sets[j].createdAt
    ensures conn.Up? ==> h.response.value.sets == DomainSetInfos(DomainSets.ListDomainSets(s, conn).value)
  {
    match DomainSets.ListDomainSets(s, conn)
    case Err(_) => Handled(ErrorJson(StatusInternalServerError, "failed to list domain sets"), [ListDomainSetsCall])
    case Ok(sets) => Handled(Json(StatusOK, ListDomainSetsResponse(DomainSetInfos(sets))), [ListDomainSetsCall])
  }

  /** No listed set reports more scanned domains than it has domains. */
  lemma ListDomainSetsScannedWithinTotal(s: DomainSets.Store, i: nat)
    requires i < |s.sets|
    ensures var sets := ListDomainSets(s, DomainSets.Up).response.value.sets;
      sets[i].scannedDomains <= sets[i].totalDomains
  {
    var listed := DomainSets.ListDomainSets(s, DomainSets.Up).value;
    assert listed[i] in multiset(DomainSets.SummarizeAll(s, s.sets));
  }

  /** Every stored set is listed once more by the handler, with the counts a lookup of its id reports. */
  lemma ListDomainSetsAgreesWithGet(s: DomainSets.Store, i: nat)
    requires DomainSets.WellFormed(s) && i < |s.sets|
    ensures var sets := ListDomainSets(s, DomainSets.Up).response.value.sets;
      var ds := DomainSets.Summarize(s, s.sets[i]);
      && DomainSets.GetDomainSet(s, DomainSets.Up, s.sets[i].id) == Ok(Some(ds))
      && exists j :: 0 <= j < |sets| && sets[j] == DomainSetInfo(ds.id, ds.name, ds.source, ds.createdAt,
                                                                 ds.totalDomains, ds.scannedDomains)
  {
    var listed := DomainSets.ListDomainSets(s, DomainSets.Up).value;
    var ds := DomainSets.Summarize(s, s.sets[i]);
    DomainSets.ListAgreesWithGet(s, i);
    var j :| 0 <= j < |listed| && listed[j] == ds;
    assert ListDomainSets(s, DomainSets.Up).response.value.sets[j]
        == DomainSetInfo(ds.id, ds.name, ds.source, ds.createdAt, ds.totalDomains, ds.scannedDomains);
  }

  function DeleteDomainSetChecks(s: DomainSets.Store, conn: DomainSets.Conn, id: string): seq<Check> {
    [ Check(id == "", StatusBadRequest, "domain set id is required"),
      Check(id != "" && DomainSets.DeleteDomainSet(s, conn, id).Err?, StatusNotFound, "domain set not found") ]
  }

  /** DeleteDomainSet answers with the first failing check, in the order id, store, and 204 when none fails. */
  lemma DeleteDomainSetFollowsTable(s: DomainSets.Store, conn: DomainSets.Conn, id: string)
    ensures AnswersFirstFailure(DeleteDomainSetChecks(s, conn, id), DeleteDomainSet(s, conn, id).response)
    ensures AllPass(DeleteDomainSetChecks(s, conn, id)) <==> DeleteDomainSet(s, conn, id).response == Bare(StatusNoContent)
  {
    var c := DeleteDomainSetChecks(s, conn, id);
    var r := DeleteDomainSet(s, conn, id).response;
    if id == "" { FirstFailureDecides(c, 0, r); }
    else if DomainSets.DeleteDomainSet(s, conn, id).Err? { FirstFailureDecides(c, 1, r); }
  }

  /**
    DELETE /api/admin/domain-sets/{id}. Any store error, including the database
    being unreachable, is reported as not found.
   */
  function DeleteDomainSet(s: DomainSets.Store, conn: DomainSets.Conn, id: string): (e: Effect<()>)
    ensures id == "" ==> e == Effect(ErrorJson(StatusBadRequest, "domain set id is required"), [], s)
    ensures id != "" ==> e.calls == [DeleteDomainSetCall(id)]
    ensures id != "" && DomainSets.DeleteDomainSet(s, conn, id).Err? ==>
      e.response == ErrorJson(StatusNotFound, "domain set not found") && e.store == s
    ensures e.response == Bare(StatusNoContent) <==> id != "" && DomainSets.DeleteDomainSet(s, conn, id).Ok?
    ensures e.response == Bare(StatusNoContent) ==>
      e.store == DomainSets.DeleteDomainSet(s, conn, id).value && id !in DomainSets.SetIds(e.store.sets)
  {
    if id == "" then Effect(ErrorJson(StatusBadRequest, "domain set id is required"), [], s)
    else
      match DomainSets.DeleteDomainSet(s, conn, id)
      case Err(_) => Effect(ErrorJson(StatusNotFound, "domain set not found"), [DeleteDomainSetCall(id)], s)
      case Ok(s') => Effect(Bare(StatusNoContent), [DeleteDomainSetCall(id)], s')
  }

  /** An unreachable database and an unknown id give the same answer. */
  lemma DeleteDomainSetOutageLooksLikeNotFound(s: DomainSets.Store, id: string)
    requires id != "" && id !in DomainSets.SetIds(s.sets)
    ensures DeleteDomainSet(s, DomainSets.Down, id).response == DeleteDomainSet(s, DomainSets.Up, id).response
  {
  }

  datatype AddDomainsToSetRequest = AddDomainsToSetRequest(domains: seq<string>)
  datatype AddDomainsToSetResponse = AddDomainsToSetResponse(inserted: nat, duplicates: nat)

  /** The request's domain list, or none when the body did not decode. */
  function RequestedDomains(body: Decoded<AddDomainsToSetRequest>): seq<string> {
    if body.Decoded? then body.value.domains else []
  }

  function AddDomainsToSetChecks(setId: string, body: Decoded<AddDomainsToSetRequest>,
                                 found: Result<Option<DomainSets.DomainSet>, DomainSets.DbError>,
                                 r: DomainSets.InsertOutcome): seq<Check>
  {
    [ Check(setId == "", StatusBadRequest, "domain set id is required"),
      Check(body.Undecodable?, StatusBadRequest, "invalid request body"),
      Check(|RequestedDomains(body)| == 0, StatusBadRequest, "domains array is required"),
      Check(found.Err?, StatusInternalServerError, "failed to get domain set"),
      Check(found.Ok? && found.value.None?, StatusNotFound, "domain set not found"),
      Check(r.err.Some?, StatusInternalServerError, "failed to insert domains") ]
  }

  /**
    The handler's control flow, given what the existence lookup returns and what
    the insert loop produces if it runs.
   */
  function AddDomainsToSetGiven(s: DomainSets.Store, setId: string, body: Decoded<AddDomainsToSetRequest>,
                                found: Result<Option<DomainSets.DomainSet>, DomainSets.DbError>,
                                r: DomainSets.InsertOutcome): (e: Effect<AddDomainsToSetResponse>)
    ensures setId == "" || body.Undecodable? || |body.value.domains| == 0 ==>
      e.calls == [] && e.store == s && e.response.status == StatusBadRequest
    ensures e.store != s ==> e.store == r.store && e.calls == [GetDomainSetCall(setId), InsertDomainsToSetCall(setId, body.value.domains)]
    ensures e.response.status == StatusNotFound ==> e.store == s && e.calls == [GetDomainSetCall(setId)] && found == Ok(None)
    ensures e.response.status == StatusOK ==>
      && found.Ok? && found.value.Some? && r.err.None?
      && e.response == Json(StatusOK, AddDomainsToSetResponse(r.inserted, r.duplicates))
  {
    if setId == "" then Effect(ErrorJson(StatusBadRequest, "domain set id is required"), [], s)
    else if body.Undecodable? then Effect(ErrorJson(StatusBadRequest, "invalid request body"), [], s)
    else if |body.value.domains| == 0 then Effect(ErrorJson(StatusBadRequest, "domains array is required"), [], s)
    else
      var lookup := [GetDomainSetCall(setId)];
      if found.Err? then Effect(ErrorJson(StatusInternalServerError, "failed to get domain set"), lookup, s)
      else if found.value.None? then Effect(ErrorJson(StatusNotFound, "domain set not found"), lookup, s)
      else
        var calls := lookup + [InsertDomainsToSetCall(setId, body.value.domains)];
        if r.err.Some? then Effect(ErrorJson(StatusInternalServerError, "failed to insert domains"), calls, r.store)
        else Effect(Json(StatusOK, AddDomainsToSetResponse(r.inserted, r.duplicates)), calls, r.store)
  }

  /** AddDomainsToSet answers with the first failing check, in the order id, body, list, lookup, existence, insert. */
  lemma AddDomainsToSetFollowsTable(s: DomainSets.Store, setId: string, body: Decoded<AddDomainsToSetRequest>,
                                    found: Result<Option<DomainSets.DomainSet>, DomainSets.DbError>,
                                    r: DomainSets.InsertOutcome)
    ensures AnswersFirstFailure(AddDomainsToSetChecks(setId, body, found, r),
                                AddDomainsToSetGiven(s, setId, body, found, r).response)
    ensures AllPass(AddDomainsToSetChecks(setId, body, found, r)) ==>
      AddDomainsToSetGiven(s, setId, body, found, r).response
      == Json(StatusOK, AddDomainsToSetResponse(r.inserted, r.duplicates))
  {
    var c := AddDomainsToSetChecks(setId, body, found, r);
    var e := AddDomainsToSetGiven(s, setId, body, found, r).response;
    if setId == "" { FirstFailureDecides(c, 0, e); }
    else if body.Undecodable? { FirstFailureDecides(c, 1, e); }
    else if |body.value.domains| == 0 { FirstFailureDecides(c, 2, e); }
    else if found.Err? { FirstFailureDecides(c, 3, e); }
    else if found.value.None? { FirstFailureDecides(c, 4, e); }
    else if r.err.Some? { FirstFailureDecides(c, 5, e); }
  }

  /**
    POST /api/admin/domain-sets/{id}/domains against the domain-set store.
    lookupConn says whether the existence check reaches the database; failAt is
    the index of the first insert statement that fails, if any.
   */
  function AddDomainsToSet(s: DomainSets.Store, lookupConn: DomainSets.Conn, failAt: Option<nat>,
                           setId: string, body: Decoded<AddDomainsToSetRequest>): (e: Effect<AddDomainsToSetResponse>)
    ensures e.store != s ==> setId in DomainSets.SetIds(s.sets)
    ensures e.response.status == StatusNotFound ==> setId !in DomainSets.SetIds(s.sets)
    ensures e.response.status == StatusOK ==>
      var r := DomainSets.InsertSpec(s, setId, RequestedDomains(body), failAt);
      && e.response == Json(StatusOK, AddDomainsToSetResponse(r.inserted, r.duplicates))
      && r.inserted + r.duplicates == |RequestedDomains(body)|
      && e.store == r.store
  {
    AddDomainsToSetGiven(s, setId, body, DomainSets.GetDomainSet(s, lookupConn, setId),
                         DomainSets.InsertSpec(s, setId, RequestedDomains(body), failAt))
  }

  /**
    A failing insert statement yields a 500, yet every name before it stays
    inserted and no name first appearing after it is added: the bulk insert is
    not atomic.
   */
  lemma AddDomainsToSetPartialFailure(s: DomainSets.Store, setId: string, domains: seq<string>, k: nat)
    requires setId != "" && setId in DomainSets.SetIds(s.sets)
    requires 0 < k < |domains|
    ensures var e := AddDomainsToSet(s, DomainSets.Up, Some(k), setId, Decoded(AddDomainsToSetRequest(domains)));
      && e.response == ErrorJson(StatusInternalServerError, "failed to insert domains")
      && (forall j :: 0 <= j < k ==> domains[j] in e.store.domains)
      && (forall d :: d !in s.domains && d !in domains[..k] ==> d !in e.store.domains)
      && (domains[0] !in s.domains ==> e.store != s)
  {
    var body := Decoded(AddDomainsToSetRequest(domains));
    var found := DomainSets.GetDomainSet(s, DomainSets.Up, setId);
    var r := DomainSets.InsertSpec(s, setId, domains, Some(k));
    assert found.Ok? && found.value.Some?;
    assert r.err.Some?;
    assert AddDomainsToSet(s, DomainSets.Up, Some(k), setId, body) == AddDomainsToSetGiven(s, setId, body, found, r);
    forall j | 0 <= j < k
      ensures domains[j] in r.store.domains
    {
      DomainSets.InsertCoversReachedNames(s, setId, domains, Some(k), j);
    }
    forall d | d !in s.domains && d !in domains[..k]
      ensures d !in r.store.domains
    {
      DomainSets.SeenMembers(domains, k, d);
    }
  }
}

=== FILE: auth.dfy ===
/**
  The admin-key gate in front of /api/admin and the lookup of the
  authenticated scanner client in a request context.

  The middleware's own source is not part of this model; its behaviour is the
  one its tests in internal/coordinator/middleware/auth_test.go pin down.
  Header names are taken as already canonical (http.Header stores and looks
  up keys in canonical form).
 */
module Auth {
  import opened Wrappers
  import opened Http

  const AdminKeyHeader: string := "X-Admin-Key"

  /** The response a gated handler produces, and whether the wrapped handler ran. */
  datatype Gate<T> = Gate(response: Response<T>, nextCalled: bool)

  /** The presented key opens the gate: a key is configured and the request carries exactly it. */
  predicate KeyAccepted(configuredKey: string, headers: map<string, seq<string>>) {
    configuredKey != "" && Get(headers, AdminKeyHeader) == configuredKey
  }

  /**
    AdminAuth(configuredKey) around next, for a request with the given headers:
    next answers when the key is accepted, and otherwise a 401 with the
    message "unauthorized" is sent and next never runs.
   */
  function AdminAuth<T>(configuredKey: string, headers: map<string, seq<string>>, next: Response<T>): (g: Gate<T>)
    ensures g.nextCalled <==> KeyAccepted(configuredKey, headers)
    ensures g.nextCalled ==> g.response == next
    ensures !g.nextCalled ==> g.response == ErrorJson(StatusUnauthorized, "unauthorized")
  {
    if configuredKey == "" || Get(headers, AdminKeyHeader) != configuredKey then
      Gate(ErrorJson(StatusUnauthorized, "unauthorized"), false)
    else
      Gate(next, true)
  }

  /** Every rejection sends the same body, {"error":"unauthorized"}. */
  lemma RejectionBody<T>(configuredKey: string, headers: map<string, seq<string>>, next: Response<T>)
    requires !KeyAccepted(configuredKey, headers)
    ensures var g := AdminAuth(configuredKey, headers, next);
      && g.response.status == 401
      && PlainText(g.response.message)
      && ErrorBody(g.response.message) == "{\"error\":\"unauthorized\"}"
  {
  }

  /** A key that opens the gate is never empty, and the gate looks at no header but X-Admin-Key. */
  lemma GateReadsOnlyAdminKey<T>(configuredKey: string, h1: map<string, seq<string>>, h2: map<string, seq<string>>,
                                 next: Response<T>)
    requires Get(h1, AdminKeyHeader) == Get(h2, AdminKeyHeader)
    ensures AdminAuth(configuredKey, h1, next) == AdminAuth(configuredKey, h2, next)
    ensures AdminAuth(configuredKey, h1, next).nextCalled ==> Get(h1, AdminKeyHeader) != ""
  {
  }

  /** The cases the middleware's tests pin down. */
  lemma AdminAuthCases<T>(next: Response<T>)
    ensures var key := "test-admin-key-12345";
      && AdminAuth(key, map[AdminKeyHeader := [key]], next) == Gate(next, true)
      && !AdminAuth(key, map[], next).nextCalled
      && !AdminAuth(key, map[AdminKeyHeader := ["wrong-key"]], next).nextCalled
      && !AdminAuth(key, map[AdminKeyHeader := [""]], next).nextCalled
      && !AdminAuth(key, map["Authorization" := [key]], next).nextCalled
    ensures AdminAuth("", map[AdminKeyHeader := [""]], next).response == ErrorJson(StatusUnauthorized, "unauthorized")
  {
  }

  /** An empty configured key locks everyone out, whatever the request carries. */
  lemma EmptyKeyRejectsAll<T>(headers: map<string, seq<string>>, next: Response<T>)
    ensures !AdminAuth("", headers, next).nextCalled
    ensures AdminAuth("", headers, next).response.status == StatusUnauthorized
  {
  }

  // ---------------------------------------------------------------------------
  // The authenticated client in a request context

  /** A registered scanner client; times are instants. */
  datatype ScannerClient = ScannerClient(
    id: string, name: string, tokenHash: string, createdAt: int, lastHeartbeat: Option<int>)

  /** Context keys: the package's own client key, and keys of other packages. */
  datatype ContextKey = ClientContextKey | OtherKey(name: string)

  /** A value stored in a context: a *ScannerClient (possibly nil), or a value of some other type. */
  datatype ContextValue = ClientPointer(client: Option<ScannerClient>) | OtherValue(text: string)

  /** A context: the empty background, or a parent with one more key bound. */
  datatype Context = Background | WithValue(parent: Context, key: ContextKey, value: ContextValue)

  /** The keys bound anywhere in a context. */
  function Keys(ctx: Context): set<ContextKey> {
    match ctx
    case Background => {}
    case WithValue(parent, k, _) => {k} + Keys(parent)
  }

  /** context.Value: the value of the innermost binding of key. */
  function Value(ctx: Context, key: ContextKey): (v: Option<ContextValue>)
    ensures v.None? <==> key !in Keys(ctx)
    ensures ctx.WithValue? && ctx.key == key ==> v == Some(ctx.value)
  {
    match ctx
    case Background => None
    case WithValue(parent, k, val) => if k == key then Some(val) else Value(parent, key)
  }

  /**
    GetClient: the client stored under the client key, when the value found
    there is a non-nil *ScannerClient; nothing otherwise.
   */
  function GetClient(ctx: Context): (c: Option<ScannerClient>)
    ensures c.Some? ==> Value(ctx, ClientContextKey) == Some(ClientPointer(c))
    ensures c.None? <==> ClientContextKey !in Keys(ctx) || !Value(ctx, ClientContextKey).value.ClientPointer?
                         || Value(ctx, ClientContextKey).value.client.None?
  {
    match Value(ctx, ClientContextKey)
    case Some(ClientPointer(Some(client))) => Some(client)
    case _ => None
  }

  /** A client stored in a context is read back with every field unchanged, whatever the context held before. */
  lemma GetClientRoundTrip(ctx: Context, client: ScannerClient)
    ensures GetClient(WithValue(ctx, ClientContextKey, ClientPointer(Some(client)))) == Some(client)
  {
  }

  /** No client when nothing is stored, when a value of another type is stored, or when a nil pointer is. */
  lemma GetClientAbsentCases(ctx: Context, text: string)
    ensures GetClient(Background) == None
    ensures GetClient(WithValue(ctx, ClientContextKey, OtherValue(text))) == None
    ensures GetClient(WithValue(ctx, ClientContextKey, ClientPointer(None))) == None
  {
  }

  /** Bindings under other keys do not hide the client, and a later binding of the client key does. */
  lemma GetClientInnermostWins(ctx: Context, name: string, v: ContextValue)
    ensures GetClient(WithValue(ctx, OtherKey(name), v)) == GetClient(ctx)
    ensures v.OtherValue? || v == ClientPointer(None) ==> GetClient(WithValue(ctx, ClientContextKey, v)) == None
  {
  }
}

=== FILE: domain_sets.dfy ===
/**
  The domain-set part of the coordinator's store: the domain_sets table, the
  root_domains table reduced to the columns these queries touch, and the five
  queries over them (create, get with counts, list with counts, delete, bulk
  insert ignoring duplicates).

  A root domain's name is its unique key, so root_domains is a map from name to
  row. Domain sets are kept in insertion order. Whether the database answers at
  all is a parameter (Conn); the bulk insert instead takes the index of the first
  statement that fails, since it issues one statement per name.
 */
module DomainSets {
  import opened Wrappers

  type Id = string

  /** A root_domains row: the owning set (NULL once the set is deleted) and when it was last scanned. */
  datatype RootDomain = RootDomain(setId: Option<Id>, lastScannedAt: Option<int>)

  /** A domain_sets row. */
  datatype SetRow = SetRow(id: Id, name: string, source: string, createdAt: int)

  /** A domain set as GetDomainSet and ListDomainSets return it, with its computed counts. */
  datatype DomainSet = DomainSet(
    id: Id, name: string, source: string, createdAt: int,
    totalDomains: nat, scannedDomains: nat)

  datatype Store = Store(sets: seq<SetRow>, domains: map<string, RootDomain>)

  /** Whether the database answers the query. */
  datatype Conn = Up | Down

  /**
    NoRows is pgx.ErrNoRows (nothing matched); QueryFailed is any failure of the
    database itself; ConstraintViolation is a uniqueness violation on insert.
   */
  datatype DbError = NoRows | QueryFailed | ConstraintViolation

  function SetIds(sets: seq<SetRow>): set<Id> {
    set row | row in sets :: row.id
  }

  /** No two rows share an id: the first row's id does not recur, and so on down the list. */
  ghost predicate UniqueIds(sets: seq<SetRow>) {
    sets == [] || (sets[0].id !in SetIds(sets[1..]) && UniqueIds(sets[1..]))
  }

  lemma {:induction false} AppendKeepsIdsUnique(sets: seq<SetRow>, row: SetRow)
    requires UniqueIds(sets) && row.id !in SetIds(sets)
    ensures UniqueIds(sets + [row])
  {
    if sets != [] {
      var r := sets + [row];
      assert r[1..] == sets[1..] + [row];
      assert sets[0] in sets;
      AppendKeepsIdsUnique(sets[1..], row);
    } else {
      assert ([row])[1..] == [];
    }
  }

  /** With unique ids, looking up a row's id finds that very row. */
  lemma {:induction false} FindSetUnique(sets: seq<SetRow>, i: nat)
    requires UniqueIds(sets) && i < |sets|
    ensures FindSet(sets, sets[i].id) == Some(sets[i])
  {
    if i > 0 {
      assert sets[i] == sets[1..][i - 1];
      FindSetUnique(sets[1..], i - 1);
    }
  }

  /** Set ids are unique and every domain that names a set names an existing one. */
  ghost predicate WellFormed(s: Store) {
    && UniqueIds(s.sets)
    && (forall d :: d in s.domains && s.domains[d].setId.Some? ==> s.domains[d].setId.value in SetIds(s.sets))
  }

  /** The names of the domains that belong to set id. */
  function Members(s: Store, id: Id): set<string> {
    set d | d in s.domains && s.domains[d].setId == Some(id)
  }

  /** The members of set id that have been scanned at least once. */
  function ScannedMembers(s: Store, id: Id): set<string> {
    set d | d in Members(s, id) && s.domains[d].lastScannedAt.Some?
  }

  lemma SubsetCardinality<T>(a: set<T>, b: set<T>)
    requires a <= b
    ensures |a| <= |b|
  {
    assert b == a + (b - a);
  }

  /** The GROUP BY row for one set: its columns plus COUNT(rd.id) and the filtered count. */
  function Summarize(s: Store, row: SetRow): (ds: DomainSet)
    ensures ds.id == row.id && ds.name == row.name && ds.source == row.source && ds.createdAt == row.createdAt
    ensures ds.totalDomains == |Members(s, row.id)|
    ensures ds.scannedDomains == |ScannedMembers(s, row.id)|
    ensures ds.scannedDomains <= ds.totalDomains
  {
    SubsetCardinality(ScannedMembers(s, row.id), Members(s, row.id));
    DomainSet(row.id, row.name, row.source, row.createdAt,
              |Members(s, row.id)|, |ScannedMembers(s, row.id)|)
  }

  /** The row with the given id, if any. */
  function FindSet(sets: seq<SetRow>, id: Id): (r: Option<SetRow>)
    ensures r.None? <==> id !in SetIds(sets)
    ensures r.Some? ==> r.value.id == id && r.value in sets
  {
    if sets == [] then None
    else if sets[0].id == id then Some(sets[0])
    else
      assert sets == [sets[0]] + sets[1..];
      FindSet(sets[1..], id)
  }

  // ---------------------------------------------------------------------------
  // CreateDomainSet

  datatype Created = Created(row: SetRow, store: Store)

  /**
    Inserts a new set with the id and creation time the database assigns; a clash
    with an existing id or name violates the table's uniqueness constraints.
   */
  function CreateDomainSet(s: Store, conn: Conn, newId: Id, name: string, source: string, now: int)
    : (r: Result<Created, DbError>)
    ensures conn.Down? ==> r == Err(QueryFailed)
    ensures conn.Up? ==> (r.Err? <==> newId in SetIds(s.sets) || exists i :: 0 <= i < |s.sets| && s.sets[i].name == name)
    ensures r.Ok? ==> r.value.row == SetRow(newId, name, source, now)
    ensures r.Ok? ==> r.value.store.sets == s.sets + [r.value.row] && r.value.store.domains == s.domains
  {
    if conn.Down? then Err(QueryFailed)
    else if newId in SetIds(s.sets) || exists i :: 0 <= i < |s.sets| && s.sets[i].name == name then
      Err(ConstraintViolation)
    else
      var row := SetRow(newId, name, source, now);
      Ok(Created(row, Store(s.sets + [row], s.domains)))
  }

  lemma CreatePreservesWellFormed(s: Store, newId: Id, name: string, source: string, now: int)
    requires WellFormed(s)
    requires CreateDomainSet(s, Up, newId, name, source, now).Ok?
    ensures WellFormed(CreateDomainSet(s, Up, newId, name, source, now).value.store)
  {
    AppendKeepsIdsUnique(s.sets, SetRow(newId, name, source, now));
  }

  // ---------------------------------------------------------------------------
  // GetDomainSet

  /**
    The set with its counts; Ok(None) when no set has that id (the query's
    ErrNoRows is turned into a nil result, not an error).
   */
  function GetDomainSet(s: Store, conn: Conn, id: Id): (r: Result<Option<DomainSet>, DbError>)
    ensures conn.Down? <==> r.Err?
    ensures r.Ok? ==> (r.value.None? <==> id !in SetIds(s.sets))
    ensures r.Ok? && r.value.Some? ==>
      && r.value.value.id == id
      && r.value.value.totalDomains == |Members(s, id)|
      && r.value.value.scannedDomains == |ScannedMembers(s, id)|
      && r.value.value.scannedDomains <= r.value.value.totalDomains
  {
    if conn.Down? then Err(QueryFailed)
    else
      match FindSet(s.sets, id)
      case None => Ok(None)
      case Some(row) => Ok(Some(Summarize(s, row)))
  }

  /** A freshly created set exists and has no domains yet. */
  lemma CreatedSetIsEmpty(s: Store, newId: Id, name: string, source: string, now: int)
    requires WellFormed(s)
    requires CreateDomainSet(s, Up, newId, name, source, now).Ok?
    ensures var s' := CreateDomainSet(s, Up, newId, name, source, now).value.store;
      GetDomainSet(s', Up, newId) == Ok(Some(DomainSet(newId, name, source, now, 0, 0)))
  {
  }

  // ---------------------------------------------------------------------------
  // ListDomainSets

  ghost predicate NewestFirst(xs: seq<DomainSet>) {
    forall i, j :: 0 <= i < j < |xs| ==> xs[i].createdAt >= xs[j].createdAt
  }

  function InsertByCreated(x: DomainSet, xs: seq<DomainSet>): (r: seq<DomainSet>)
    requires NewestFirst(xs)
    ensures NewestFirst(r)
    ensures multiset(r) == multiset(xs) + multiset{x}
    ensures |r| == |xs| + 1
    ensures r[0] == x || (|xs| > 0 && r[0] == xs[0])
  {
    if xs == [] || x.createdAt >= xs[0].createdAt then
      PrependNewest(x, xs);
      [x] + xs
    else
      var rest := InsertByCreated(x, xs[1..]);
      assert xs == [xs[0]] + xs[1..];
      PrependNewest(xs[0], rest);
      [xs[0]] + rest
  }

  /** A set no younger than the head of a newest-first list can go in front of it. */
  lemma PrependNewest(y: DomainSet, ys: seq<DomainSet>)
    requires NewestFirst(ys)
    requires ys == [] || y.createdAt >= ys[0].createdAt
    ensures NewestFirst([y] + ys)
  {
    var r := [y] + ys;
    forall i, j | 0 <= i < j < |r|
      ensures r[i].createdAt >= r[j].createdAt
    {
      if i > 0 {
        assert r[i] == ys[i - 1] && r[j] == ys[j - 1];
      } else if j > 1 {
        assert ys[0].createdAt >= ys[j - 1].createdAt;
      }
    }
  }

  /** Orders sets newest first; a permutation of its input. */
  function SortByCreated(xs: seq<DomainSet>): (r: seq<DomainSet>)
    ensures NewestFirst(r)
    ensures multiset(r) == multiset(xs)
  {
    if xs == [] then []
    else
      assert xs == [xs[0]] + xs[1..];
      InsertByCreated(xs[0], SortByCreated(xs[1..]))
  }

  function SummarizeAll(s: Store, rows: seq<SetRow>): (r: seq<DomainSet>)
    ensures |r| == |rows|
    ensures forall i :: 0 <= i < |rows| ==> r[i] == Summarize(s, rows[i])
  {
    if rows == [] then [] else [Summarize(s, rows[0])] + SummarizeAll(s, rows[1..])
  }

  /**
    Every set exactly once, each with its counts, ordered by creation time
    descending. Sets created at the same instant may come back in any order;
    the model fixes one.
   */
  function ListDomainSets(s: Store, conn: Conn): (r: Result<seq<DomainSet>, DbError>)
    ensures conn.Down? <==> r.Err?
    ensures r.Ok? ==> |r.value| == |s.sets|
    ensures r.Ok? ==> NewestFirst(r.value)
    ensures r.Ok? ==> multiset(r.value) == multiset(SummarizeAll(s, s.sets))
  {
    if conn.Down? then Err(QueryFailed)
    else
      var r := SortByCreated(SummarizeAll(s, s.sets));
      assert |r| == |multiset(r)|;
      Ok(r)
  }

  /** Each listed set carries the same counts a GetDomainSet of its id returns. */
  lemma ListAgreesWithGet(s: Store, i: nat)
    requires WellFormed(s)
    requires i < |s.sets|
    ensures ListDomainSets(s, Up).Ok?
    ensures var ds := Summarize(s, s.sets[i]);
      ds in ListDomainSets(s, Up).value && GetDomainSet(s, Up, ds.id) == Ok(Some(ds))
  {
    var all := SummarizeAll(s, s.sets);
    var ds := Summarize(s, s.sets[i]);
    assert all[i] == ds;
    assert ds in multiset(all);
    assert ds in multiset(ListDomainSets(s, Up).value);
    FindSetUnique(s.sets, i);
  }

  // ---------------------------------------------------------------------------
  // DeleteDomainSet

  function RemoveSet(sets: seq<SetRow>, id: Id): (r: seq<SetRow>)
    ensures forall row :: row in r <==> row in sets && row.id != id
    ensures SetIds(r) == SetIds(sets) - {id}
    ensures |r| <= |sets|
  {
    if sets == [] then []
    else
      var rest := RemoveSet(sets[1..], id);
      assert sets == [sets[0]] + sets[1..];
      if sets[0].id == id then rest else [sets[0]] + rest
  }

  /** The former members of set id keep their rows, with domain_set_id set to NULL. */
  function Detach(domains: map<string, RootDomain>, id: Id): (r: map<string, RootDomain>)
    ensures r.Keys == domains.Keys
    ensures forall d :: d in domains && domains[d].setId != Some(id) ==> r[d] == domains[d]
    ensures forall d :: d in domains && domains[d].setId == Some(id) ==>
      r[d] == RootDomain(None, domains[d].lastScannedAt)
  {
    map d | d in domains ::
      if domains[d].setId == Some(id) then RootDomain(None, domains[d].lastScannedAt) else domains[d]
  }

  /**
    Deletes the set; NoRows exactly when no set had that id. What happens to the
    set's domains follows the function's own documentation (they are detached),
    since the table definitions are not part of this model.
   */
  function DeleteDomainSet(s: Store, conn: Conn, id: Id): (r: Result<Store, DbError>)
    ensures conn.Down? ==> r == Err(QueryFailed)
    ensures conn.Up? ==> (r == Err(NoRows) <==> id !in SetIds(s.sets))
    ensures conn.Up? ==> (r.Ok? <==> id in SetIds(s.sets))
    ensures r.Ok? ==> SetIds(r.value.sets) == SetIds(s.sets) - {id}
    ensures r.Ok? ==> forall row :: row in s.sets && row.id != id ==> row in r.value.sets
    ensures r.Ok? ==> r.value.domains.Keys == s.domains.Keys && Members(r.value, id) == {}
    ensures r.Ok? ==> forall d :: d in s.domains && s.domains[d].setId == Some(id) ==>
      r.value.domains[d] == RootDomain(None, s.domains[d].lastScannedAt)
    ensures r.Ok? ==> forall d :: d in s.domains && s.domains[d].setId != Some(id) ==>
      r.value.domains[d] == s.domains[d]
  {
    if conn.Down? then Err(QueryFailed)
    else if id !in SetIds(s.sets) then Err(NoRows)
    else Ok(Store(RemoveSet(s.sets, id), Detach(s.domains, id)))
  }

  lemma DeletePreservesWellFormed(s: Store, id: Id)
    requires WellFormed(s)
    requires DeleteDomainSet(s, Up, id).Ok?
    ensures WellFormed(DeleteDomainSet(s, Up, id).value)
  {
    var s' := DeleteDomainSet(s, Up, id).value;
    RemoveKeepsIdsUnique(s.sets, id);
    forall d | d in s'.domains && s'.domains[d].setId.Some?
      ensures s'.domains[d].setId.value in SetIds(s'.sets)
    {
      assert s.domains[d].setId != Some(id);
      assert s'.domains[d] == s.domains[d];
    }
  }

  lemma {:induction false} RemoveKeepsIdsUnique(sets: seq<SetRow>, id: Id)
    requires UniqueIds(sets)
    ensures UniqueIds(RemoveSet(sets, id))
  {
    if sets != [] {
      RemoveKeepsIdsUnique(sets[1..], id);
      var rest := RemoveSet(sets[1..], id);
      if sets[0].id != id {
        var r := [sets[0]] + rest;
        assert r[1..] == rest;
        assert RemoveSet(sets, id) == r;
      }
    }
  }

  /** After a delete, looking the set up finds nothing, and deleting it again is NoRows. */
  lemma DeletedSetIsGone(s: Store, id: Id)
    requires DeleteDomainSet(s, Up, id).Ok?
    ensures GetDomainSet(DeleteDomainSet(s, Up, id).value, Up, id) == Ok(None)
    ensures DeleteDomainSet(DeleteDomainSet(s, Up, id).value, Up, id) == Err(NoRows)
  {
  }

  // ---------------------------------------------------------------------------
  // InsertDomainsToSet

  /** The distinct names among the first n entries of a list. */
  function Seen(ds: seq<string>, n: nat): set<string>
    requires n <= |ds|
  {
    if n == 0 then {} else Seen(ds, n - 1) + {ds[n - 1]}
  }

  lemma {:induction false} SeenMembers(ds: seq<string>, n: nat, d: string)
    requires n <= |ds|
    ensures d in Seen(ds, n) <==> exists j :: 0 <= j < n && ds[j] == d
  {
    if n > 0 {
      SeenMembers(ds, n - 1, d);
    }
  }

  lemma {:induction false} SeenCardinality(ds: seq<string>, n: nat)
    requires n <= |ds|
    ensures |Seen(ds, n)| <= n
  {
    if n > 0 {
      SeenCardinality(ds, n - 1);
    }
  }

  /** The row a newly inserted name gets: owned by the set, never scanned. */
  function NewRow(setId: Id): RootDomain {
    RootDomain(Some(setId), None)
  }

  /** Adds a NewRow for every name of names that is not yet a key; existing rows stay as they are. */
  function AddAbsent(m: map<string, RootDomain>, names: set<string>, setId: Id): (r: map<string, RootDomain>)
    ensures r.Keys == m.Keys + names
    ensures forall d :: d in m ==> r[d] == m[d]
    ensures forall d :: d in names && d !in m ==> r[d] == NewRow(setId)
  {
    map d | d in m.Keys + names :: if d in m then m[d] else NewRow(setId)
  }

  /** AddAbsent is determined by the keys it adds and the rows it keeps. */
  lemma AddAbsentUnique(m: map<string, RootDomain>, names: set<string>, setId: Id, t: map<string, RootDomain>)
    requires t.Keys == m.Keys + names
    requires forall d :: d in m ==> t[d] == m[d]
    requires forall d :: d in t && d !in m ==> t[d] == NewRow(setId)
    ensures t == AddAbsent(m, names, setId)
  {
  }

  /** The number of statements that run: all of them, or up to the first failing one. */
  function Reached(domains: seq<string>, failAt: Option<nat>): (k: nat)
    ensures k <= |domains|
  {
    if failAt.Some? && failAt.value < |domains| then failAt.value else |domains|
  }

  datatype InsertOutcome = InsertOutcome(inserted: nat, duplicates: nat, err: Option<DbError>, store: Store)

  /**
    The effect of InsertDomainsToSet stated in one step rather than statement by
    statement: of the names whose statements ran, those not already present are
    added once each with the set as owner, everything else counts as a duplicate,
    and existing rows are never overwritten.
   */
  function InsertSpec(s: Store, setId: Id, domains: seq<string>, failAt: Option<nat>): (r: InsertOutcome)
    ensures r.inserted + r.duplicates == Reached(domains, failAt)
    ensures r.err.None? <==> Reached(domains, failAt) == |domains|
    ensures r.store.sets == s.sets
    ensures r.store.domains.Keys == s.domains.Keys + Seen(domains, Reached(domains, failAt))
    ensures forall d :: d in s.domains ==> r.store.domains[d] == s.domains[d]
  {
    var k := Reached(domains, failAt);
    var added := Seen(domains, k) - s.domains.Keys;
    SubsetCardinality(added, Seen(domains, k));
    SeenCardinality(domains, k);
    InsertOutcome(
      |added|, k - |added|,
      if k < |domains| then Some(QueryFailed) else None,
      Store(s.sets, AddAbsent(s.domains, Seen(domains, k), setId)))
  }

  /**
    The handler's loop: one INSERT ... ON CONFLICT (domain) DO NOTHING per name,
    counting a row affected as inserted and none as a duplicate, and returning the
    counts so far at the first failing statement. failAt is the index of that
    statement, if any.
   */
  method InsertDomainsToSet(s: Store, setId: Id, domains: seq<string>, failAt: Option<nat>)
    returns (inserted: nat, duplicates: nat, err: Option<DbError>, s': Store)
    ensures InsertOutcome(inserted, duplicates, err, s') == InsertSpec(s, setId, domains, failAt)
    ensures err.Some? <==> failAt.Some? && failAt.value < |domains|
  {
    var table := s.domains;
    inserted, duplicates := 0, 0;
    var i := 0;
    while i < |domains| && failAt != Some(i)
      invariant i <= |domains|
      invariant failAt.Some? ==> failAt.value >= i
      invariant table.Keys == s.domains.Keys + Seen(domains, i)
      invariant forall d :: d in s.domains ==> table[d] == s.domains[d]
      invariant forall d :: d in table && d !in s.domains ==> table[d] == NewRow(setId)
      invariant inserted == FirstSightings(s.domains.Keys, domains, i)
      invariant inserted + duplicates == i
    {
      var d := domains[i];
      if d !in table {
        table := table[d := NewRow(setId)];
        inserted := inserted + 1;
      } else {
        duplicates := duplicates + 1;
      }
      i := i + 1;
    }
    err := if i < |domains| then Some(QueryFailed) else None;
    s' := Store(s.sets, table);
    LoopExit(s, setId, domains, failAt, i, inserted, duplicates, table);
  }

  /** What the loop's invariants give once it stops after the first n statements. */
  lemma LoopExit(s: Store, setId: Id, domains: seq<string>, failAt: Option<nat>,
                 n: nat, inserted: nat, duplicates: nat, table: map<string, RootDomain>)
    requires n == Reached(domains, failAt)
    requires table.Keys == s.domains.Keys + Seen(domains, n)
    requires forall d :: d in s.domains ==> table[d] == s.domains[d]
    requires forall d :: d in table && d !in s.domains ==> table[d] == NewRow(setId)
    requires inserted == FirstSightings(s.domains.Keys, domains, n)
    requires inserted + duplicates == n
    ensures InsertOutcome(inserted, duplicates, if n < |domains| then Some(QueryFailed) else None, Store(s.sets, table))
         == InsertSpec(s, setId, domains, failAt)
  {
    AddAbsentUnique(s.domains, Seen(domains, n), setId, table);
    FirstSightingsCount(s.domains.Keys, domains, n);
  }

  /** How many of the first n names are neither present nor seen earlier in the list. */
  function FirstSightings(present: set<string>, ds: seq<string>, n: nat): nat
    requires n <= |ds|
  {
    if n == 0 then 0
    else if ds[n - 1] in present + Seen(ds, n - 1) then FirstSightings(present, ds, n - 1)
    else FirstSightings(present, ds, n - 1) + 1
  }

  /** Counting first sightings one by one gives the number of distinct new names. */
  lemma {:induction false} FirstSightingsCount(present: set<string>, ds: seq<string>, n: nat)
    requires n <= |ds|
    ensures FirstSightings(present, ds, n) == |Seen(ds, n) - present|
  {
    if n > 0 {
      FirstSightingsCount(present, ds, n - 1);
      NewNamesStep(present, ds, n);
    }
  }

  /** One more name adds one new name exactly when it is neither present nor seen before. */
  lemma NewNamesStep(present: set<string>, ds: seq<string>, n: nat)
    requires 0 < n <= |ds|
    ensures |Seen(ds, n) - present| ==
      |Seen(ds, n - 1) - present| + (if ds[n - 1] in present + Seen(ds, n - 1) then 0 else 1)
  {
    var d := ds[n - 1];
    var before := Seen(ds, n - 1) - present;
    if d in present + Seen(ds, n - 1) {
      assert Seen(ds, n) - present == before;
    } else {
      assert Seen(ds, n) - present == before + {d};
    }
  }

  /** Every name whose statement ran is in the table afterwards. */
  lemma InsertCoversReachedNames(s: Store, setId: Id, domains: seq<string>, failAt: Option<nat>, j: nat)
    requires j < Reached(domains, failAt)
    ensures domains[j] in InsertSpec(s, setId, domains, failAt).store.domains
  {
    SeenMembers(domains, Reached(domains, failAt), domains[j]);
  }

  /** Only previously absent names count as inserted, each once however often it is repeated. */
  lemma InsertCountsDistinctNewNames(s: Store, setId: Id, domains: seq<string>)
    ensures var r := InsertSpec(s, setId, domains, None);
      && r.inserted == |Names(domains) - s.domains.Keys|
      && r.duplicates == |domains| - |Names(domains) - s.domains.Keys|
  {
    SeenIsNames(domains);
  }

  /** The distinct names of a whole list. */
  function Names(ds: seq<string>): set<string> {
    set d | d in ds
  }

  lemma SeenIsNames(ds: seq<string>)
    ensures Seen(ds, |ds|) == Names(ds)
  {
    forall d
      ensures d in Seen(ds, |ds|) <==> d in ds
    {
      SeenMembers(ds, |ds|, d);
    }
  }

  /** Repeating a successful insert of the same list adds nothing and reports every name as a duplicate. */
  lemma InsertIdempotent(s: Store, setId: Id, domains: seq<string>)
    ensures var first := InsertSpec(s, setId, domains, None);
      var second := InsertSpec(first.store, setId, domains, None);
      second.inserted == 0 && second.duplicates == |domains| && second.err.None? && second.store == first.store
  {
  }

  /** A name already present keeps its owning set: a later insert into another set does not move it. */
  lemma InsertNeverMovesExistingName(s: Store, setA: Id, setB: Id, first: seq<string>, second: seq<string>, d: string)
    requires d in first && d !in s.domains
    ensures var s1 := InsertSpec(s, setA, first, None).store;
      var s2 := InsertSpec(s1, setB, second, None).store;
      d in s2.domains && s2.domains[d].setId == Some(setA)
  {
    SeenMembers(first, |first|, d);
  }

  lemma InsertPreservesWellFormed(s: Store, setId: Id, domains: seq<string>, failAt: Option<nat>)
    requires WellFormed(s) && setId in SetIds(s.sets)
    ensures WellFormed(InsertSpec(s, setId, domains, failAt).store)
  {
  }

  /** A name given twice in one call into an empty table: inserted once, then a duplicate. */
  lemma InsertRepeatedNameExample()
    ensures var r := InsertSpec(Store([], map[]), "s", ["a.example", "a.example"], None);
      r.inserted == 1 && r.duplicates == 1 && r.store.domains == map["a.example" := NewRow("s")]
  {
  }
}

=== FILE: frontend.dfy ===
/**
  The embedded single-page frontend: which file a request path names, the
  fallback to index.html for client-side routes, and the Cache-Control header
  chosen for each path.

  The embedded file system enters as the set of names it can open; serving the
  bytes (http.FileServer) is not part of this model.
 */
module Frontend {
  import opened Strings

  /** The three caching regimes the frontend uses. */
  datatype CachePolicy = Immutable | Revalidate | OneDay

  /**
    The Cache-Control header value of each regime: every one is public with a
    max-age, and only the hashed-asset regime is marked immutable.
   */
  function CacheControl(p: CachePolicy): (h: string)
    ensures HasPrefix(h, "public, max-age=")
    ensures HasSuffix(h, ", immutable") <==> p == Immutable
  {
    match p
    case Immutable => "public, max-age=31536000, immutable"
    case Revalidate => "public, max-age=0, must-revalidate"
    case OneDay => "public, max-age=86400"
  }

  /** Where the build tool puts content-hashed assets, which never change under the same name. */
  const ImmutablePrefix: string := "/_app/immutable/"

  /**
    The regime for a URL path: hashed assets are cached forever, HTML pages and
    the site root revalidate on every use, anything else is cached for a day.
    The hashed-asset test comes first, so it wins over the .html test.
   */
  function PolicyFor(path: string): (p: CachePolicy)
    ensures p == Immutable <==> HasPrefix(path, ImmutablePrefix)
    ensures p == Revalidate <==> !HasPrefix(path, ImmutablePrefix) && (HasSuffix(path, ".html") || path == "/")
    ensures p == OneDay <==> !HasPrefix(path, ImmutablePrefix) && !HasSuffix(path, ".html") && path != "/"
  {
    if HasPrefix(path, ImmutablePrefix) then Immutable
    else if HasSuffix(path, ".html") || path == "/" then Revalidate
    else OneDay
  }

  /** The three header values differ, so the header alone tells which regime was chosen. */
  lemma CacheControlInjective(p: CachePolicy, q: CachePolicy)
    ensures CacheControl(p) == CacheControl(q) <==> p == q
  {
  }

  /**
    Everything under the hashed-asset directory is cached forever, whatever its
    name: an .html page or a bare directory name gets no other regime there.
   */
  lemma HashedDirectoryAlwaysImmutable(name: string)
    ensures PolicyFor(ImmutablePrefix + name) == Immutable
    ensures PolicyFor(ImmutablePrefix + name + ".html") == Immutable
  {
  }

  /** An HTML file under the hashed-asset directory is still cached forever. */
  lemma ImmutableWinsOverHtml()
    ensures PolicyFor("/_app/immutable/page.html") == Immutable
    ensures PolicyFor("/about.html") == Revalidate
    ensures PolicyFor("/") == Revalidate
    ensures PolicyFor("/favicon.png") == OneDay
  {
  }

  /**
    What the handler does with one request: the Cache-Control value it sets,
    the URL path the file server then sees, and the name it looked up; or a
    panic, for the one path that has no leading character to strip.
   */
  datatype Served =
    | Served(cacheControl: string, servedPath: string, lookedUp: string)
    | Panicked

  /** The path a request is resolved as: the site root names index.html. */
  function Resolve(urlPath: string): (path: string)
    ensures urlPath != "" ==> path != ""
    ensures path != "/"
  {
    if urlPath == "/" then "/index.html" else urlPath
  }

  /**
    The handler for one request. files is the set of names the embedded file
    system opens successfully (files and directories, below the build root).
   */
  function Serve(urlPath: string, files: set<string>): (s: Served)
    ensures s.Panicked? <==> urlPath == ""
    ensures s.Served? ==> |s.lookedUp| == |Resolve(urlPath)| - 1 && s.lookedUp == Resolve(urlPath)[1..]
    ensures s.Served? && urlPath[0] == '/' ==> "/" + s.lookedUp == Resolve(urlPath)
    ensures s.Served? && s.lookedUp !in files ==>
      s.cacheControl == CacheControl(Revalidate) && s.servedPath == "/"
    ensures s.Served? && s.lookedUp in files ==>
      s.cacheControl == CacheControl(PolicyFor(Resolve(urlPath))) && s.servedPath == urlPath
  {
    var path := Resolve(urlPath);
    if path == "" then Panicked
    else
      var name := path[1..];
      assert path[0] == '/' ==> "/" + name == path;
      assert HasSuffix("/index.html", ".html");
      if name !in files then Served(CacheControl(PolicyFor("/index.html")), "/", name)
      else Served(CacheControl(PolicyFor(path)), urlPath, name)
  }

  /**
    A path that names no file is answered from the site root and must be
    revalidated, never cached as immutable: a client-side route must not be
    pinned to an old build.
   */
  lemma FallbackIsNeverImmutable(urlPath: string, files: set<string>)
    requires urlPath != "" && Serve(urlPath, files).lookedUp !in files
    ensures Serve(urlPath, files).cacheControl != CacheControl(Immutable)
    ensures Serve(urlPath, files).servedPath == "/"
  {
  }

  /** The site root is served from index.html with the revalidating header, whether or not it exists. */
  lemma RootServesIndex(files: set<string>)
    ensures Serve("/", files) == Served(CacheControl(Revalidate), "/", "index.html")
  {
  }

  /** An existing hashed asset is served under its own path and cached forever. */
  lemma HashedAssetCachedForever(urlPath: string, files: set<string>)
    requires HasPrefix(urlPath, ImmutablePrefix) && urlPath[1..] in files
    ensures Serve(urlPath, files) == Served(CacheControl(Immutable), urlPath, urlPath[1..])
  {
  }

  /** A missing asset, even under the hashed-asset directory, falls back to the site root. */
  lemma MissingHashedAssetFallsBack(urlPath: string, files: set<string>)
    requires HasPrefix(urlPath, ImmutablePrefix) && urlPath[1..] !in files
    ensures Serve(urlPath, files) == Served(CacheControl(Revalidate), "/", urlPath[1..])
  {
  }
}

=== FILE: http.dfy ===
/**
  The HTTP vocabulary the handlers share: status codes, what a handler writes back,
  request values the router and JSON decoder hand over, and the lookup rule of
  Go's url.Values.Get and http.Header.Get.
 */
module Http {
  import opened Wrappers

  const StatusOK: int := 200
  const StatusCreated: int := 201
  const StatusNoContent: int := 204
  const StatusBadRequest: int := 400
  const StatusUnauthorized: int := 401
  const StatusNotFound: int := 404
  const StatusInternalServerError: int := 500

  /**
    What a handler sends: writeJSON of a value, writeError (a JSON object whose
    only member "error" holds the message), or a bare status line with no body.
   */
  datatype Response<T> =
    | Json(status: int, value: T)
    | ErrorJson(status: int, message: string)
    | Bare(status: int)

  /**
    Characters encoding/json writes as they are inside a string (with HTML
    escaping on, as json.Encoder has by default): printable ASCII other than the
    quote, the backslash and the three HTML-significant characters.
   */
  predicate PlainChar(c: char) {
    ' ' <= c <= '~' && c != '"' && c != '\\' && c != '<' && c != '>' && c != '&'
  }

  predicate PlainText(s: string) {
    forall i :: 0 <= i < |s| ==> PlainChar(s[i])
  }

  const ErrorBodyOpen: string := "{\"error\":\""
  const ErrorBodyClose: string := "\"}"

  /**
    The JSON text writeError sends for a message that needs no escaping,
    without the newline json.Encoder appends.
   */
  function ErrorBody(message: string): (body: string)
    requires PlainText(message)
    ensures |body| == |message| + 12
  {
    ErrorBodyOpen + message + ErrorBodyClose
  }

  /** Reads the message back out of an error body; None for any other text. */
  function ErrorBodyMessage(body: string): Option<string> {
    if |body| >= 12 && body[..10] == ErrorBodyOpen && body[|body| - 2..] == ErrorBodyClose
       && PlainText(body[10..|body| - 2])
    then Some(body[10..|body| - 2])
    else None
  }

  /** An error body carries its message unchanged. */
  lemma ErrorBodyRoundTrip(message: string)
    requires PlainText(message)
    ensures ErrorBodyMessage(ErrorBody(message)) == Some(message)
  {
  }

  /** A handler's response together with the store calls it made, in order. */
  datatype Handled<T, Call> = Handled(response: Response<T>, calls: seq<Call>)

  /** The outcome of decoding a JSON request body: a value, or a decoding error. */
  datatype Decoded<T> = Decoded(value: T) | Undecodable

  /** An error returned by a store call whose implementation is not part of this model. */
  datatype StoreError = StoreError

  /**
    Multi-valued string maps (query strings, request headers): Get returns the
    first value stored under the key and "" when there is none, so a missing
    key and an empty value are indistinguishable to the caller.
   */
  function Get(m: map<string, seq<string>>, key: string): string {
    if key in m && |m[key]| > 0 then m[key][0] else ""
  }

  /** One step of a handler's ordered validation: when it fails, the handler answers with this status and message. */
  datatype Check = Check(fails: bool, status: int, message: string)

  /** Check i fails and every check before it passes. */
  ghost predicate FailsFirstAt(checks: seq<Check>, i: int) {
    0 <= i < |checks| && checks[i].fails && forall j :: 0 <= j < i ==> !checks[j].fails
  }

  /** Every check of the table passes. */
  ghost predicate AllPass(checks: seq<Check>) {
    forall i :: 0 <= i < |checks| ==> !checks[i].fails
  }

  /**
    A response follows an ordered validation table on its failing side when,
    as soon as some check fails, it is exactly the error of the first failing one.
   */
  ghost predicate AnswersFirstFailure<T>(checks: seq<Check>, r: Response<T>) {
    forall i :: FailsFirstAt(checks, i) ==> r == ErrorJson(checks[i].status, checks[i].message)
  }

  /**
    Once check k is known to be the first failure, a response that is its error
    follows the table: no other index can also be the first failure.
   */
  lemma FirstFailureDecides<T>(checks: seq<Check>, k: int, r: Response<T>)
    requires FailsFirstAt(checks, k)
    requires r == ErrorJson(checks[k].status, checks[k].message)
    ensures AnswersFirstFailure(checks, r)
    ensures !AllPass(checks)
  {
  }
}


=== FILE: metrics.dfy ===
/**
  The HTTP metrics middleware: an in-flight gauge around every request, a
  request counter labelled by method, normalised path and status, a duration
  histogram labelled by method and normalised path, and a referrer counter for
  requests outside the API.

  Path normalisation and referrer-domain extraction are functions whose
  definitions are not part of this model; they enter as parameters. The clock
  enters as the elapsed time of each request.
 */
module Metrics {
  import opened Http
  import Strings
  import Strconv
  import Frontend

  /** Requests under /api are API calls; everything else is a page of the public site. */
  predicate IsApiPath(path: string) {
    |path| >= 4 && path[..4] == "/api"
  }

  /** The test is a plain prefix test, with no regard for path segments. */
  lemma IsApiPathIsPrefix(path: string)
    ensures IsApiPath(path) <==> Strings.HasPrefix(path, "/api")
    ensures IsApiPath("/apix") && IsApiPath("/api") && IsApiPath("/api/public/stats")
    ensures !IsApiPath("/ap") && !IsApiPath("/") && !IsApiPath("/about") && !IsApiPath("api/")
  {
    assert "/apix"[..4] == "/api" && "/api/public/stats"[..4] == "/api";
    assert "/about"[..4][2] != "/api"[2] && "api/"[..4][0] != "/api"[0];
  }

  // ---------------------------------------------------------------------------
  // Status capture

  /** What a handler does to its response writer, in order. */
  datatype WriterEvent = WriteHeader(code: int) | WriteBody

  /**
    The status the wrapping writer ends up holding: it starts at 200 and every
    WriteHeader call overwrites it. Writing a body goes straight to the
    underlying writer and leaves it alone.
   */
  function Captured(status: int, events: seq<WriterEvent>): (code: int)
    ensures (forall i :: 0 <= i < |events| ==> events[i].WriteBody?) ==> code == status
    ensures forall i :: 0 <= i < |events| && events[i].WriteHeader? ==>
      (forall j :: i < j < |events| ==> events[j].WriteBody?) ==> code == events[i].code
    decreases |events|
  {
    if events == [] then status
    else
      var next := if events[0].WriteHeader? then events[0].code else status;
      var r := Captured(next, events[1..]);
      assert forall i :: 1 <= i < |events| ==> events[i] == events[1..][i - 1];
      r
  }

  function CapturedStatus(events: seq<WriterEvent>): int {
    Captured(StatusOK, events)
  }

  /**
    The status net/http actually sends: the first WriteHeader before any body,
    200 if a body is written first or nothing is written at all. Later
    WriteHeader calls are ignored.
   */
  function SentStatus(events: seq<WriterEvent>): (code: int)
    ensures events != [] && events[0].WriteHeader? ==> code == events[0].code
  {
    if events == [] then StatusOK
    else
      match events[0]
      case WriteHeader(c) => c
      case WriteBody => StatusOK
  }

  /** The events of a handler that answers through writeJSON, writeError or a bare status. */
  function ResponseEvents<T>(r: Response<T>): seq<WriterEvent> {
    match r
    case Json(status, _) => [WriteHeader(status), WriteBody]
    case ErrorJson(status, _) => [WriteHeader(status), WriteBody]
    case Bare(status) => [WriteHeader(status)]
  }

  /**
    For every response the handlers write, the captured status is the status
    the client receives: each writes its header exactly once, before any body.
   */
  lemma CapturedIsSentForHandlerResponses<T>(r: Response<T>)
    ensures CapturedStatus(ResponseEvents(r)) == SentStatus(ResponseEvents(r)) == r.status
  {
  }

  /**
    A handler that calls WriteHeader twice is counted under its last code while
    the client receives the first one.
   */
  lemma CapturedIsLastCall()
    ensures CapturedStatus([WriteHeader(500), WriteHeader(200)]) == 200
    ensures SentStatus([WriteHeader(500), WriteHeader(200)]) == 500
    ensures CapturedStatus([WriteBody, WriteHeader(404)]) == 404
    ensures SentStatus([WriteBody, WriteHeader(404)]) == 200
    ensures CapturedStatus([]) == 200 && CapturedStatus([WriteBody]) == 200
  {
  }

  // ---------------------------------------------------------------------------
  // Collectors

  /** A labelled counter: a count per label tuple; a tuple never seen counts zero. */
  type Counter<K> = map<K, nat>

  function Count<K>(c: Counter<K>, k: K): nat {
    if k in c then c[k] else 0
  }

  /** Counter.Inc on one label tuple. */
  function Inc<K(!new)>(c: Counter<K>, k: K): (r: Counter<K>)
    ensures Count(r, k) == Count(c, k) + 1
    ensures forall j :: j != k ==> Count(r, j) == Count(c, j)
    ensures r.Keys == c.Keys + {k}
  {
    c[k := Count(c, k) + 1]
  }

  /** The collectors the middleware touches. Durations are kept as the list of observations per label. */
  datatype Registry = Registry(
    inFlight: int,
    requests: Counter<(string, string, string)>,
    durations: map<(string, string), seq<int>>,
    referrers: Counter<string>)

  function Observations(d: map<(string, string), seq<int>>, k: (string, string)): seq<int> {
    if k in d then d[k] else []
  }

  /**
    One incoming request (verb is its HTTP method), with what its handler did
    and how long it took. path is the URL path as it arrives; pathAfter is the
    URL path once the handler has returned, which a handler may have rewritten
    (the frontend rewrites a path that names no file to the site root). The
    middleware reads the path only after the handler, so only pathAfter enters
    its labels and its API test. panicked says the handler panicked instead of
    returning.
   */
  datatype Request = Request(
    verb: string, path: string, pathAfter: string, headers: map<string, seq<string>>,
    events: seq<WriterEvent>, elapsed: int, panicked: bool)

  /** The collector state while the handler runs, and after the request is recorded. */
  datatype Recorded = Recorded(during: Registry, after: Registry)

  /** The label tuple the request counter uses for a request. */
  function RequestLabels(req: Request, normalize: string -> string): (string, string, string) {
    (req.verb, normalize(req.pathAfter), Strconv.Itoa(CapturedStatus(req.events)))
  }

  /**
    The middleware around one request. When the handler panics, only the
    deferred in-flight decrement runs while the panic passes through: nothing
    is counted, timed or attributed to a referrer.
   */
  function Middleware(reg: Registry, req: Request, normalize: string -> string, referrerOf: string -> string)
    : (r: Recorded)
    ensures r.during.inFlight == reg.inFlight + 1 && r.after.inFlight == reg.inFlight
    ensures req.panicked ==> r.after == reg
    ensures !req.panicked ==>
      Count(r.after.requests, RequestLabels(req, normalize)) == Count(reg.requests, RequestLabels(req, normalize)) + 1
    ensures !req.panicked ==>
      forall k :: k != RequestLabels(req, normalize) ==> Count(r.after.requests, k) == Count(reg.requests, k)
    ensures !req.panicked ==>
      Observations(r.after.durations, (req.verb, normalize(req.pathAfter)))
      == Observations(reg.durations, (req.verb, normalize(req.pathAfter))) + [req.elapsed]
    ensures !req.panicked ==>
      forall k :: k != (req.verb, normalize(req.pathAfter)) ==> Observations(r.after.durations, k) == Observations(reg.durations, k)
    ensures !req.panicked && IsApiPath(req.pathAfter) ==> r.after.referrers == reg.referrers
    ensures !req.panicked && !IsApiPath(req.pathAfter) ==>
      r.after.referrers == Inc(reg.referrers, referrerOf(Get(req.headers, "Referer")))
  {
    var during := reg.(inFlight := reg.inFlight + 1);
    if req.panicked then Recorded(during, during.(inFlight := during.inFlight - 1))
    else
      var labels := RequestLabels(req, normalize);
      var route := (req.verb, normalize(req.pathAfter));
      var requests := Inc(during.requests, labels);
      var durations := during.durations[route := Observations(during.durations, route) + [req.elapsed]];
      var referrers := if IsApiPath(req.pathAfter) then during.referrers
                       else Inc(during.referrers, referrerOf(Get(req.headers, "Referer")));
      Recorded(during, Registry(during.inFlight - 1, requests, durations, referrers))
  }

  /** The collector state after a sequence of requests, served one after another. */
  function ServeAll(reg: Registry, reqs: seq<Request>, normalize: string -> string, referrerOf: string -> string)
    : Registry
    decreases |reqs|
  {
    if reqs == [] then reg
    else ServeAll(Middleware(reg, reqs[0], normalize, referrerOf).after, reqs[1..], normalize, referrerOf)
  }

  /** How many of the requests carry the given request-counter labels and return from their handler. */
  function Matching(reqs: seq<Request>, normalize: string -> string, k: (string, string, string)): nat {
    if reqs == [] then 0
    else (if !reqs[0].panicked && RequestLabels(reqs[0], normalize) == k then 1 else 0) + Matching(reqs[1..], normalize, k)
  }

  /**
    Every request is counted exactly once under its own labels, and the
    in-flight gauge returns to where it started.
   */
  lemma {:induction false} ServeAllCountsEachRequest(reg: Registry, reqs: seq<Request>, normalize: string -> string,
                                                     referrerOf: string -> string, k: (string, string, string))
    ensures Count(ServeAll(reg, reqs, normalize, referrerOf).requests, k) == Count(reg.requests, k) + Matching(reqs, normalize, k)
    ensures ServeAll(reg, reqs, normalize, referrerOf).inFlight == reg.inFlight
    decreases |reqs|
  {
    if reqs != [] {
      ServeAllCountsEachRequest(Middleware(reg, reqs[0], normalize, referrerOf).after, reqs[1..], normalize, referrerOf, k);
    }
  }

  /** API calls never touch the referrer counter. */
  lemma {:induction false} ApiCallsLeaveReferrersAlone(reg: Registry, reqs: seq<Request>, normalize: string -> string,
                                                       referrerOf: string -> string)
    requires forall i :: 0 <= i < |reqs| ==> IsApiPath(reqs[i].pathAfter)
    ensures ServeAll(reg, reqs, normalize, referrerOf).referrers == reg.referrers
    decreases |reqs|
  {
    if reqs != [] {
      assert forall i :: 0 <= i < |reqs[1..]| ==> reqs[1..][i] == reqs[i + 1];
      ApiCallsLeaveReferrersAlone(Middleware(reg, reqs[0], normalize, referrerOf).after, reqs[1..], normalize, referrerOf);
    }
  }

  /**
    A client-side route served by the frontend is recorded under the site root,
    not under the path the browser asked for: the frontend has rewritten the
    path to "/" by the time the middleware reads it. Being outside /api, it is
    counted in the referrer counter whatever path was requested.
   */
  lemma ClientRouteCountedAsRoot(reg: Registry, req: Request, files: set<string>,
                                 normalize: string -> string, referrerOf: string -> string)
    requires req.path != "" && Frontend.Serve(req.path, files).lookedUp !in files
    requires req.pathAfter == Frontend.Serve(req.path, files).servedPath
    requires req.panicked == Frontend.Serve(req.path, files).Panicked?
    ensures RequestLabels(req, normalize).1 == normalize("/")
    ensures Observations(Middleware(reg, req, normalize, referrerOf).after.durations, (req.verb, normalize("/")))
         == Observations(reg.durations, (req.verb, normalize("/"))) + [req.elapsed]
    ensures Middleware(reg, req, normalize, referrerOf).after.referrers
         == Inc(reg.referrers, referrerOf(Get(req.headers, "Referer")))
  {
  }

  /**
    A request whose URL path is empty, as for an absolute-form request line,
    makes the frontend panic; it leaves every collector as it found it.
   */
  lemma EmptyPathLeavesNoTrace(reg: Registry, req: Request, files: set<string>,
                               normalize: string -> string, referrerOf: string -> string)
    requires req.path == "" && req.panicked == Frontend.Serve(req.path, files).Panicked?
    ensures Middleware(reg, req, normalize, referrerOf).after == reg
    ensures Middleware(reg, req, normalize, referrerOf).during.inFlight == reg.inFlight + 1
  {
  }
}

=== FILE: public_handlers.dfy ===
/**
  The unauthenticated endpoints under /api/public: the paged record listing,
  the GeoJSON export of every record, and the scan statistics.

  The record and statistics queries are not part of this model: what they
  return enters each handler as a parameter, and each handler reports the
  queries it issued.
 */
module PublicHandlers {
  import opened Wrappers
  import opened Http
  import Strconv

  /** A query a public handler issues. */
  datatype StoreCall =
    | ListLOCRecordsCall(limit: int, offset: int, domain: string)
    | GetAllLOCRecordsCall
    | GetDomainStatsCall
    | CountInProgressDomainsCall
    | CountActiveClientsCall(timeout: int)
    | CountLOCRecordsCall
    | CountUniqueRootDomainsWithLOCCall

  /** A URL query string: every value given for each parameter name, in order. */
  type Query = map<string, seq<string>>

  // ---------------------------------------------------------------------------
  // Query parameters

  /**
    A non-negative integer query parameter: the parsed value when the first
    value given for name is a decimal integer that fits in an int and is not
    negative, and the default otherwise.
   */
  function ParseIntParam(query: Query, name: string, default: int): (v: int)
    ensures v == default || Strconv.Atoi(Get(query, name)) == Some(v)
    ensures v != default ==> v >= 0
    ensures Strconv.Atoi(Get(query, name)).Some? && Strconv.Atoi(Get(query, name)).value >= 0 ==>
      v == Strconv.Atoi(Get(query, name)).value
  {
    var s := Get(query, name);
    if s == "" then default
    else
      match Strconv.Atoi(s)
      case None => default
      case Some(n) => if n < 0 then default else n
  }

  /** With a non-negative default the result is never negative, whatever the query holds. */
  lemma ParseIntParamNonNegative(query: Query, name: string, default: int)
    requires default >= 0
    ensures ParseIntParam(query, name, default) >= 0
  {
  }

  /** A parameter absent, empty, malformed or negative yields the default. */
  lemma ParseIntParamFallsBack(query: Query, name: string, default: int)
    ensures Strconv.Atoi(Get(query, name)).None? ==> ParseIntParam(query, name, default) == default
    ensures Strconv.Atoi(Get(query, name)).Some? && Strconv.Atoi(Get(query, name)).value < 0 ==>
      ParseIntParam(query, name, default) == default
    ensures name !in query ==> ParseIntParam(query, name, default) == default
    ensures name in query && query[name] == [""] ==> ParseIntParam(query, name, default) == default
    ensures name in query && query[name] == ["-3"] ==> ParseIntParam(query, name, default) == default
    ensures name in query && query[name] == ["ten"] ==> ParseIntParam(query, name, default) == default
  {
  }

  /** Every non-negative int written in decimal is read back as itself, whatever follows it in the query. */
  lemma ParseIntParamReadsDecimal(query: Query, name: string, default: int, n: int, rest: seq<string>)
    requires 0 <= n <= Strconv.MaxInt64
    requires name in query && query[name] == [Strconv.Itoa(n)] + rest
    ensures ParseIntParam(query, name, default) == n
  {
    Strconv.AtoiItoa(n);
  }

  // ---------------------------------------------------------------------------
  // GET /api/public/records

  const DefaultLimit: int := 100
  const MaxLimit: int := 1000
  const DefaultOffset: int := 0

  /** A page of records as the store returns it: the rows (nil when there are none) and the total count. */
  datatype Page<R> = Page(records: Option<seq<R>>, total: int)

  datatype ListRecordsResponse<R> = ListRecordsResponse(records: seq<R>, total: int, limit: int, offset: int)

  /** The page size a request asks for: the limit parameter capped at MaxLimit, with no lower clamp. */
  function PageLimit(query: Query): (limit: int)
    ensures 0 <= limit <= MaxLimit
    ensures ParseIntParam(query, "limit", DefaultLimit) <= MaxLimit ==> limit == ParseIntParam(query, "limit", DefaultLimit)
    ensures ParseIntParam(query, "limit", DefaultLimit) > MaxLimit ==> limit == MaxLimit
  {
    var l := ParseIntParam(query, "limit", DefaultLimit);
    if l > MaxLimit then MaxLimit else l
  }

  /** GET /api/public/records. listed is what the record query returns if it is issued. */
  function ListRecords<R>(query: Query, listed: Result<Page<R>, StoreError>)
    : (h: Handled<ListRecordsResponse<R>, StoreCall>)
    ensures |h.calls| == 1 && h.calls[0].ListLOCRecordsCall?
    ensures 0 <= h.calls[0].limit <= MaxLimit && h.calls[0].offset >= 0
    ensures h.calls[0].limit == PageLimit(query)
    ensures h.calls[0].offset == ParseIntParam(query, "offset", DefaultOffset)
    ensures h.calls[0].domain == Get(query, "domain")
    ensures listed.Err? <==> h.response == ErrorJson(StatusInternalServerError, "failed to list records")
    ensures listed.Ok? ==>
      && h.response.Json? && h.response.status == StatusOK
      && h.response.value.limit == h.calls[0].limit
      && h.response.value.offset == h.calls[0].offset
      && h.response.value.total == listed.value.total
      && h.response.value.records == (if listed.value.records.Some? then listed.value.records.value else [])
  {
    var limit := PageLimit(query);
    var offset := ParseIntParam(query, "offset", DefaultOffset);
    var calls := [ListLOCRecordsCall(limit, offset, Get(query, "domain"))];
    match listed
    case Err(_) => Handled(ErrorJson(StatusInternalServerError, "failed to list records"), calls)
    case Ok(page) =>
      var records := if page.records.Some? then page.records.value else [];
      Handled(Json(StatusOK, ListRecordsResponse(records, page.total, limit, offset)), calls)
  }

  /** An empty query asks for the first 100 records of every domain. */
  lemma ListRecordsDefaults<R>(listed: Result<Page<R>, StoreError>)
    ensures ListRecords(map[], listed).calls == [ListLOCRecordsCall(100, 0, "")]
  {
  }

  /**
    A decimal limit is taken as given up to 1000 and capped above it; a limit
    of 0 passes through unchanged.
   */
  lemma ListRecordsLimit<R>(n: int, listed: Result<Page<R>, StoreError>)
    requires 0 <= n <= Strconv.MaxInt64
    ensures var q := map["limit" := [Strconv.Itoa(n)]];
      ListRecords(q, listed).calls[0].limit == if n > 1000 then 1000 else n
  {
    ParseIntParamReadsDecimal(map["limit" := [Strconv.Itoa(n)]], "limit", DefaultLimit, n, []);
  }

  /** A decimal offset is passed to the query as given, however large. */
  lemma ListRecordsOffset<R>(n: int, listed: Result<Page<R>, StoreError>)
    requires 0 <= n <= Strconv.MaxInt64
    ensures var q := map["offset" := [Strconv.Itoa(n)]];
      ListRecords(q, listed).calls[0].offset == n
  {
    ParseIntParamReadsDecimal(map["offset" := [Strconv.Itoa(n)]], "offset", DefaultOffset, n, []);
  }

  /** A limit or offset that is not a non-negative decimal falls back to 100 and 0. */
  lemma ListRecordsMalformedFallsBack<R>(listed: Result<Page<R>, StoreError>)
    ensures var q := map["limit" := ["abc"], "offset" := ["-5"]];
      ListRecords(q, listed).calls[0].limit == 100 && ListRecords(q, listed).calls[0].offset == 0
  {
  }

  /** A missing record list is reported as an empty one, never as null. */
  lemma ListRecordsNilIsEmpty<R>(query: Query, total: int)
    ensures ListRecords<R>(query, Ok(Page(None, total))).response.value.records == []
  {
  }

  // ---------------------------------------------------------------------------
  // GET /api/public/records.geojson

  /**
    A float64 as encoding/json sees it: a finite value, or one of the values
    JSON cannot represent.
   */
  datatype Float = Finite(x: real) | NaN | Inf(negative: bool)

  /**
    A LOC record with the coordinates and sizes the store decoded. Times are
    instants in nanoseconds since the Unix epoch.
   */
  datatype LocRecord = LocRecord(
    fqdn: string, rootDomain: string, rawRecord: string,
    latitude: Float, longitude: Float, altitudeM: Float,
    sizeM: Float, horizPrecM: Float, vertPrecM: Float,
    firstSeenAt: int, lastSeenAt: int)

  /** A value in a feature's property bag. */
  datatype Value = Text(s: string) | Number(f: Float) | Instant(t: int)

  datatype Point = Point(kind: string, coordinates: seq<Float>)
  datatype Feature = Feature(kind: string, geometry: Point, properties: map<string, Value>)
  datatype FeatureCollection = FeatureCollection(kind: string, features: seq<Feature>)

  /** The property names each feature carries. */
  const PropertyNames: set<string> := {
    "fqdn", "root_domain", "raw_record", "altitude_m", "size_m",
    "horiz_prec_m", "vert_prec_m", "first_seen", "last_seen" }

  /** One record as a GeoJSON Point feature; GeoJSON orders coordinates longitude, latitude, altitude. */
  function ToFeature(rec: LocRecord): (f: Feature)
    ensures f.kind == "Feature" && f.geometry.kind == "Point"
    ensures f.geometry.coordinates == [rec.longitude, rec.latitude, rec.altitudeM]
    ensures f.properties.Keys == PropertyNames
    ensures |f.geometry.coordinates| == 3 && f.properties["altitude_m"] == Number(f.geometry.coordinates[2])
  {
    Feature("Feature", Point("Point", [rec.longitude, rec.latitude, rec.altitudeM]),
      map[
        "fqdn" := Text(rec.fqdn),
        "root_domain" := Text(rec.rootDomain),
        "raw_record" := Text(rec.rawRecord),
        "altitude_m" := Number(rec.altitudeM),
        "size_m" := Number(rec.sizeM),
        "horiz_prec_m" := Number(rec.horizPrecM),
        "vert_prec_m" := Number(rec.vertPrecM),
        "first_seen" := Instant(rec.firstSeenAt),
        "last_seen" := Instant(rec.lastSeenAt)])
  }

  /**
    Reads a record back out of a feature: position from the geometry, the rest
    from the property bag. None when the feature is not a Point feature with
    exactly the expected properties, or when its altitude property disagrees
    with its third coordinate.
   */
  function FromFeature(f: Feature): Option<LocRecord> {
    var p := f.properties;
    if f.kind == "Feature" && f.geometry.kind == "Point"
       && |f.geometry.coordinates| == 3 && p.Keys == PropertyNames
       && p["fqdn"].Text? && p["root_domain"].Text? && p["raw_record"].Text?
       && p["size_m"].Number? && p["horiz_prec_m"].Number? && p["vert_prec_m"].Number?
       && p["first_seen"].Instant? && p["last_seen"].Instant?
       && p["altitude_m"] == Number(f.geometry.coordinates[2])
    then
      var c := f.geometry.coordinates;
      Some(LocRecord(p["fqdn"].s, p["root_domain"].s, p["raw_record"].s,
                     c[1], c[0], c[2],
                     p["size_m"].f, p["horiz_prec_m"].f, p["vert_prec_m"].f,
                     p["first_seen"].t, p["last_seen"].t))
    else None
  }

  /** A feature loses nothing of its record. */
  lemma FeatureRoundTrip(rec: LocRecord)
    ensures FromFeature(ToFeature(rec)) == Some(rec)
  {
  }

  /** One feature per record, in the records' order. */
  function ToFeatures(records: seq<LocRecord>): (fs: seq<Feature>)
    ensures |fs| == |records|
    ensures forall i :: 0 <= i < |records| ==> fs[i] == ToFeature(records[i])
  {
    if records == [] then [] else [ToFeature(records[0])] + ToFeatures(records[1..])
  }

  predicate IsFinite(f: Float) {
    f.Finite?
  }

  /** 0000-01-01T00:00:00Z and 10000-01-01T00:00:00Z, in nanoseconds since the Unix epoch. */
  const YearZeroStart: int := -62_167_219_200 * 1_000_000_000
  const YearTenThousandStart: int := 253_402_300_800 * 1_000_000_000

  /** time.Time's JSON form is an RFC 3339 text, which it refuses to write for a year outside 0..9999. */
  predicate EncodableInstant(t: int) {
    YearZeroStart <= t < YearTenThousandStart
  }

  /** encoding/json refuses NaN and infinities, and times whose year has more than four digits. */
  predicate EncodableValue(v: Value) {
    && (v.Number? ==> IsFinite(v.f))
    && (v.Instant? ==> EncodableInstant(v.t))
  }

  predicate EncodableFeature(f: Feature) {
    && (forall c :: c in f.geometry.coordinates ==> IsFinite(c))
    && (forall k :: k in f.properties ==> EncodableValue(f.properties[k]))
  }

  predicate Encodable(fc: FeatureCollection) {
    forall i :: 0 <= i < |fc.features| ==> EncodableFeature(fc.features[i])
  }

  /** Every float of the record is finite. */
  predicate FiniteRecord(rec: LocRecord) {
    && IsFinite(rec.latitude) && IsFinite(rec.longitude) && IsFinite(rec.altitudeM)
    && IsFinite(rec.sizeM) && IsFinite(rec.horizPrecM) && IsFinite(rec.vertPrecM)
  }

  /** Every float of the record is finite and both of its times lie in years 0..9999. */
  predicate EncodableRecord(rec: LocRecord) {
    FiniteRecord(rec) && EncodableInstant(rec.firstSeenAt) && EncodableInstant(rec.lastSeenAt)
  }

  /** A record's feature encodes exactly when every float is finite and both times are in range. */
  lemma EncodableFeatureIffEncodableRecord(rec: LocRecord)
    ensures EncodableFeature(ToFeature(rec)) <==> EncodableRecord(rec)
  {
  }

  /** The collection of all records encodes exactly when every record does. */
  lemma EncodableIffAllRecordsEncodable(records: seq<LocRecord>)
    ensures Encodable(FeatureCollection("FeatureCollection", ToFeatures(records)))
        <==> forall i :: 0 <= i < |records| ==> EncodableRecord(records[i])
  {
    forall i | 0 <= i < |records| {
      EncodableFeatureIffEncodableRecord(records[i]);
    }
  }

  /** What the GeoJSON endpoint writes: a response and the headers set before it. */
  datatype GeoJsonReply = GeoJsonReply(response: Response<FeatureCollection>, headers: map<string, string>)

  const GeoJsonHeaders: map<string, string> :=
    map["Content-Type" := "application/geo+json", "Cache-Control" := "public, max-age=300"]

  /** GET /api/public/records.geojson. listed is what the all-records query returns. */
  function GetRecordsGeoJSON(listed: Result<seq<LocRecord>, StoreError>): (g: GeoJsonReply)
    ensures listed.Err? ==> g == GeoJsonReply(ErrorJson(StatusInternalServerError, "failed to get records"), map[])
    ensures listed.Ok? && g.response.status == StatusOK ==>
      && (forall i :: 0 <= i < |listed.value| ==> EncodableRecord(listed.value[i]))
      && g.headers == GeoJsonHeaders
      && g.response.Json? && g.response.value.kind == "FeatureCollection"
      && g.response.value.features == ToFeatures(listed.value)
      && |g.response.value.features| == |listed.value|
      && (forall i :: 0 <= i < |listed.value| ==> FromFeature(g.response.value.features[i]) == Some(listed.value[i]))
    ensures listed.Ok? && g.response.status != StatusOK ==>
      && (exists i :: 0 <= i < |listed.value| && !EncodableRecord(listed.value[i]))
      && g == GeoJsonReply(ErrorJson(StatusInternalServerError, "failed to encode geojson"), map[])
  {
    match listed
    case Err(_) => GeoJsonReply(ErrorJson(StatusInternalServerError, "failed to get records"), map[])
    case Ok(records) =>
      var fc := FeatureCollection("FeatureCollection", ToFeatures(records));
      EncodableIffAllRecordsEncodable(records);
      if Encodable(fc) then
        assert forall i :: 0 <= i < |records| ==> FromFeature(fc.features[i]) == Some(records[i]) by {
          forall i | 0 <= i < |records| {
            FeatureRoundTrip(records[i]);
          }
        }
        GeoJsonReply(Json(StatusOK, fc), GeoJsonHeaders)
      else
        GeoJsonReply(ErrorJson(StatusInternalServerError, "failed to encode geojson"), map[])
  }

  /** Encodable records always export successfully, with the cache and content-type headers set. */
  lemma GeoJsonSucceedsOnEncodableRecords(records: seq<LocRecord>)
    requires forall i :: 0 <= i < |records| ==> EncodableRecord(records[i])
    ensures GetRecordsGeoJSON(Ok(records)).response.status == StatusOK
    ensures GetRecordsGeoJSON(Ok(records)).headers["Cache-Control"] == "public, max-age=300"
  {
  }

  /** A record with finite floats but a time in the year 10000 spoils the whole export. */
  lemma GeoJsonRejectsFarFutureTime(rec: LocRecord, others: seq<LocRecord>)
    requires FiniteRecord(rec) && rec.lastSeenAt >= YearTenThousandStart
    ensures GetRecordsGeoJSON(Ok(others + [rec])).response
         == ErrorJson(StatusInternalServerError, "failed to encode geojson")
  {
    var records := others + [rec];
    EncodableIffAllRecordsEncodable(records);
    assert records[|others|] == rec;
  }

  // ---------------------------------------------------------------------------
  // GET /api/public/stats

  datatype DomainStats = DomainStats(total: int, scanned: int, pending: int, totalSubdomainsScanned: int)

  datatype StatsResponse = StatsResponse(
    totalRootDomains: int, scannedRootDomains: int, pendingRootDomains: int,
    inProgressRootDomains: int, totalSubdomainsScanned: int, activeScanners: int,
    totalLOCRecords: int, uniqueRootDomainsWithLOC: int)

  /** What the five statistics queries return, in the order the handler issues them. */
  datatype StatsAnswers = StatsAnswers(
    domainStats: Result<DomainStats, StoreError>,
    inProgress: Result<int, StoreError>,
    activeClients: Result<int, StoreError>,
    locCount: Result<int, StoreError>,
    uniqueWithLOC: Result<int, StoreError>)

  function StatsChecks(a: StatsAnswers): seq<Check> {
    [ Check(a.domainStats.Err?, StatusInternalServerError, "failed to get domain stats"),
      Check(a.inProgress.Err?, StatusInternalServerError, "failed to get in-progress count"),
      Check(a.activeClients.Err?, StatusInternalServerError, "failed to get active clients"),
      Check(a.locCount.Err?, StatusInternalServerError, "failed to get LOC record count"),
      Check(a.uniqueWithLOC.Err?, StatusInternalServerError, "failed to get unique domains with LOC") ]
  }

  function StatsCalls(timeout: int): seq<StoreCall> {
    [ GetDomainStatsCall, CountInProgressDomainsCall, CountActiveClientsCall(timeout),
      CountLOCRecordsCall, CountUniqueRootDomainsWithLOCCall ]
  }

  /**
    GET /api/public/stats: the five queries run one after another and the first
    failure ends the request. timeout is the heartbeat timeout that decides which
    scanners count as active.
   */
  function GetStats(a: StatsAnswers, timeout: int): (h: Handled<StatsResponse, StoreCall>)
    ensures 1 <= |h.calls| <= 5 && h.calls == StatsCalls(timeout)[..|h.calls|]
    ensures h.response.status == StatusOK <==>
      a.domainStats.Ok? && a.inProgress.Ok? && a.activeClients.Ok? && a.locCount.Ok? && a.uniqueWithLOC.Ok?
    ensures h.response.status != StatusOK ==> h.response.ErrorJson? && h.response.status == StatusInternalServerError
    ensures h.response.status == StatusOK ==>
      h.response == Json(StatusOK, StatsResponse(
        a.domainStats.value.total, a.domainStats.value.scanned, a.domainStats.value.pending,
        a.inProgress.value, a.domainStats.value.totalSubdomainsScanned, a.activeClients.value,
        a.locCount.value, a.uniqueWithLOC.value))
  {
    var calls := StatsCalls(timeout);
    if a.domainStats.Err? then Handled(ErrorJson(StatusInternalServerError, "failed to get domain stats"), calls[..1])
    else if a.inProgress.Err? then Handled(ErrorJson(StatusInternalServerError, "failed to get in-progress count"), calls[..2])
    else if a.activeClients.Err? then Handled(ErrorJson(StatusInternalServerError, "failed to get active clients"), calls[..3])
    else if a.locCount.Err? then Handled(ErrorJson(StatusInternalServerError, "failed to get LOC record count"), calls[..4])
    else if a.uniqueWithLOC.Err? then
      Handled(ErrorJson(StatusInternalServerError, "failed to get unique domains with LOC"), calls)
    else
      var d := a.domainStats.value;
      Handled(Json(StatusOK, StatsResponse(d.total, d.scanned, d.pending, a.inProgress.value,
                                           d.totalSubdomainsScanned, a.activeClients.value,
                                           a.locCount.value, a.uniqueWithLOC.value)), calls)
  }

  /**
    GetStats answers with the first failing query, and issues exactly the
    queries up to and including that one.
   */
  lemma GetStatsFollowsTable(a: StatsAnswers, timeout: int)
    ensures AnswersFirstFailure(StatsChecks(a), GetStats(a, timeout).response)
    ensures forall k :: FailsFirstAt(StatsChecks(a), k) ==> |GetStats(a, timeout).calls| == k + 1
    ensures AllPass(StatsChecks(a)) <==> GetStats(a, timeout).response.status == StatusOK
  {
    var c := StatsChecks(a);
    var h := GetStats(a, timeout);
    var k := if a.domainStats.Err? then 0 else if a.inProgress.Err? then 1 else if a.activeClients.Err? then 2
             else if a.locCount.Err? then 3 else if a.uniqueWithLOC.Err? then 4 else 5;
    if k < 5 {
      FirstFailureDecides(c, k, h.response);
      forall j | FailsFirstAt(c, j) ensures |h.calls| == j + 1 {
        assert !(j < k) && !(k < j);
      }
    }
  }
}

=== FILE: strconv.dfy ===
/**
  Decimal conversion between strings and 64-bit integers, with the meaning of Go's
  strconv.Atoi and strconv.Itoa on a 64-bit platform: Atoi accepts an optional '+' or '-'
  followed by at least one ASCII digit (leading zeros allowed, no spaces, no underscores,
  no base prefix) whose value fits in an int64, and rejects everything else.
 */
module Strconv {
  import opened Wrappers

  const MinInt64: int := -0x8000_0000_0000_0000
  const MaxInt64: int := 0x7fff_ffff_ffff_ffff

  predicate IsDigit(c: char) {
    '0' <= c <= '9'
  }

  predicate AllDigits(s: string) {
    forall i :: 0 <= i < |s| ==> IsDigit(s[i])
  }

  function DigitChar(d: nat): (c: char)
    requires d < 10
    ensures IsDigit(c)
  {
    ('0' as int + d) as char
  }

  function DigitValue(c: char): nat
    requires IsDigit(c)
  {
    c as int - '0' as int
  }

  /** The value of a run of decimal digits, most significant digit first. */
  function DigitsValue(s: string): nat
    requires AllDigits(s)
  {
    if s == [] then 0 else DigitsValue(s[..|s| - 1]) * 10 + DigitValue(s[|s| - 1])
  }

  /** The shortest decimal spelling of n: no leading zero except for "0" itself. */
  function Digits(n: nat): (s: string)
    ensures |s| > 0 && AllDigits(s)
    ensures |s| > 1 ==> s[0] != '0'
  {
    if n < 10 then [DigitChar(n)] else Digits(n / 10) + [DigitChar(n % 10)]
  }

  /** strconv.Itoa: decimal text of n, with a leading '-' when n is negative. */
  function Itoa(n: int): string {
    if n < 0 then "-" + Digits(-n) else Digits(n)
  }

  /** The digits after an optional leading sign. */
  function Unsigned(s: string): string {
    if |s| > 0 && (s[0] == '-' || s[0] == '+') then s[1..] else s
  }

  /** strconv.Atoi: None stands for the syntax and range errors. */
  function Atoi(s: string): (r: Option<int>)
    ensures r.Some? ==> MinInt64 <= r.value <= MaxInt64
    ensures r.Some? ==> |Unsigned(s)| > 0 && AllDigits(Unsigned(s))
    ensures r.Some? && r.value < 0 ==> s[0] == '-'
  {
    var body := Unsigned(s);
    if body == [] || !AllDigits(body) then None
    else
      var v: int := if s[0] == '-' then 0 - DigitsValue(body) as int else DigitsValue(body);
      if MinInt64 <= v <= MaxInt64 then Some(v) else None
  }

  lemma {:induction false} DigitsRoundTrip(n: nat)
    ensures DigitsValue(Digits(n)) == n
  {
    if n >= 10 {
      var s := Digits(n);
      var prefix := Digits(n / 10);
      assert s == prefix + [DigitChar(n % 10)];
      assert s[..|s| - 1] == prefix;
      DigitsRoundTrip(n / 10);
    }
  }

  /** Every int64 survives a trip through its decimal text. */
  lemma AtoiItoa(n: int)
    requires MinInt64 <= n <= MaxInt64
    ensures Atoi(Itoa(n)) == Some(n)
  {
    if n < 0 {
      DigitsRoundTrip(-n);
      assert Unsigned(Itoa(n)) == Digits(-n);
    } else {
      DigitsRoundTrip(n);
      assert Unsigned(Itoa(n)) == Digits(n);
    }
  }

  /** A character other than a digit after the sign is a syntax error: spaces, '_', "0x", a decimal point. */
  lemma AtoiRejectsNonDigit(s: string, i: nat)
    requires i < |Unsigned(s)| && !IsDigit(Unsigned(s)[i])
    ensures Atoi(s) == None
  {
  }

  /** Text outside the int64 range is a range error, not a clamped value. */
  lemma AtoiRejectsOutOfRange(s: string)
    requires |s| > 0 && s[0] != '-' && s[0] != '+' && AllDigits(s)
    requires DigitsValue(s) > MaxInt64
    ensures Atoi(s) == None
  {
  }

  lemma AtoiExamples()
    ensures Atoi("") == None && Atoi("-") == None && Atoi("+") == None
    ensures Atoi("007") == Some(7) && Atoi("+5") == Some(5) && Atoi("-12") == Some(-12)
    ensures Atoi("1e3") == None
  {
    assert Unsigned("007") == "007";
    assert DigitsValue("007") == 7 by {
      assert "007"[..2] == "00";
      assert "00"[..1] == "0";
    }
    assert Unsigned("+5") == "5";
    assert Unsigned("-12") == "12";
    assert DigitsValue("12") == 12 by {
      assert "12"[..1] == "1";
    }
    assert !IsDigit("1e3"[1]);
  }
}

=== FILE: strings.dfy ===
/** Prefix and suffix tests on strings, with the meaning of Go's strings.HasPrefix and strings.HasSuffix. */
module Strings {

  predicate HasPrefix(s: string, prefix: string) {
    |s| >= |prefix| && s[..|prefix|] == prefix
  }

  predicate HasSuffix(s: string, suffix: string) {
    |s| >= |suffix| && s[|s| - |suffix|..] == suffix
  }
}

=== FILE: wrappers.dfy ===
/** Optional values and success-or-error results, used for Go's nil pointers and error returns. */
module Wrappers {

  /** A value that may be missing: a nil pointer, an absent map entry, a NULL column. */
  datatype Option<T> = None | Some(value: T)

  /** The (value, error) pair of a Go call: exactly one side is meaningful. */
  datatype Result<T, E> = Ok(value: T) | Err(error: E)
}
